=== FILE: README.md ===
# Response handling of the Vert.x request adapter, in Dafny

`VertXRequestAdapter` connects Kiota-generated API clients to the Vert.x web client.
Its own logic is the response-handling pipeline behind every send operation:

- **Exchange with one-shot claims retry.** The adapter injects the base URL into the
  request's path parameters, sends the request once, and inspects the reply. A 401 whose
  `WWW-Authenticate` header carries a Bearer challenge with a `claims="..."` parameter
  (continuous access evaluation, in the style of section 3 of RFC 6750) is re-issued at
  most once; a failing `reset()` of the body is fatal. This happens only when no claims
  were sent yet and the body is absent or supports mark/reset. The claims go into an
  additional authentication context that nothing reads, so the retry sends the same
  method, URL and headers again. The body is the same too when the content rewinds to
  where the first read began (a fresh `ByteArrayInputStream`, say); otherwise it is
  re-read from the stream's mark.
- **Response handler.** After the exchange, the first `ResponseHandlerOption` in the
  request options decides: if it holds a handler, the handler's result is returned as is.
- **Failure classification.** Without a handler, a status outside 200..299 raises an
  `ApiException`. There are three kinds:
  - a generic one, when the caller's error-mapping table has no applicable entry (the
    exact code, then `4XX`, then `5XX`);
  - a missing-body one, when an entry applies but there is no root parse node;
  - a mapped one otherwise.
- **Value extraction.** A 204 gives null. For the parse-node variants a missing root
  parse node also gives null, and otherwise the value is extracted from the node. For
  `sendPrimitive`, `Void` gives null and `InputStream` the raw body, before any root-node
  test; every other class needs a root node (none: null), and an unknown class is then
  fatal.

The model is purely functional. The Vert.x client is an abstract `transport` function
from the number of the exchange within a send and a wire request to a reply, so the
server may answer the first and the second exchange differently. The parse-node factory, the node getters and the
response handler are function parameters or opaque tags. Every transport call is
recorded in an `attempts` log, so the number of transport calls of a send is the length
of that log.

Modules:

- `Outcomes`: `Option` (Java null) and `Result`.
- `Strings`: ASCII case folding, `Integer.toString`, and `String.split` on one character.
- `Http`: headers, responses, the content stream, `RequestInformation`, base-URL
  injection and handler lookup.
- `ErrorMapping`: `throwIfFailedResponse`, `getRootParseNode` and `shouldReturnNull`.
- `Claims`: `getClaimsFromResponse`, with both regular expressions written out as
  character predicates.
- `Exchange`: `getHttpResponseMessage` and `retryCAEResponseIfRequired`.
- `Send`: the shared send skeleton and `sendPrimitive`.

Behaviour of the code worth noting:

- The response handler is looked up after the exchange (`:171-172`). So a send with a
  handler still performs the exchange, including a possible retry, and a transport
  failure aborts it before the handler runs.
- The additional context holding the claims (`:454-457`) is built and never used. The
  Vert.x request is built from the method, the URI, the headers and the body alone
  (`:462-478`), and no authentication provider is called. The retry therefore sends the
  same method, URL and headers as the first exchange; the claims decide only whether it
  happens. The body is re-read after `reset()` (`:513`, `:473`), from the stream's mark:
  it equals the first body only when that mark is where the first read began.
  `Exchange.RetryRereadsFromMark` shows content marked before its position sending a
  longer body on the retry.
  `Attempt` records the context next to the wire request, and `WireRequest` has no place
  for it.
- Only a null body, or a missing `Content-Type`, means "no root node" (`:370-377`). An
  empty body that has a `Content-Type` is handed to the parse-node factory.
- `sendPrimitive` with target `InputStream` dereferences `bodyAsBuffer()` without a null
  check (`:224`). A passing response without a body therefore ends in a fatal error
  (`NullBody`), not in null.
- The Bearer test is case-insensitive (`:501`), but the prefix is stripped
  case-sensitively (`:538`). A challenge written `bearer claims="x"` keeps its prefix on
  its first parameter and yields no claims. `Claims.LowercaseBearerYieldsNothing` and
  `Claims.NonCanonicalBearerLosesFirstParameter` state this behaviour as it is.

## Model

| member | source | states |
|---|---|---|
| `Strings.IntToString` | http-vertx/src/main/java/com/microsoft/kiota/http/VertXRequestAdapter.java:391 | the status key is non-empty; it is all digits exactly for non-negative codes, and starts with `-` followed by digits otherwise |
| `Strings.DecimalRoundTrip` | http-vertx/src/main/java/com/microsoft/kiota/http/VertXRequestAdapter.java:391 | reading back the decimal digits of a status gives the status: rendering has an inverse |
| `Strings.IntToStringInjective` | http-vertx/src/main/java/com/microsoft/kiota/http/VertXRequestAdapter.java:391-396 | two different status codes never share a mapping-table key |
| `Strings.SplitAll` | http-vertx/src/main/java/com/microsoft/kiota/http/VertXRequestAdapter.java:543 | splitting on `,` yields at least one piece; no piece contains `,`; the first piece is a prefix of the input; without a comma the result is the input alone |
| `Strings.JoinSplitAll` | http-vertx/src/main/java/com/microsoft/kiota/http/VertXRequestAdapter.java:543 | gluing the pieces back with `,` gives back the header value: splitting loses no character |
| `Strings.DropTrailingEmpty` | http-vertx/src/main/java/com/microsoft/kiota/http/VertXRequestAdapter.java:543 | the result is a prefix of the pieces, everything dropped is empty, and the last kept piece is non-empty |
| `Strings.JavaSplit` | http-vertx/src/main/java/com/microsoft/kiota/http/VertXRequestAdapter.java:543 | `split(",")` is the full split with every trailing empty piece removed, so the last piece kept is non-empty (`"a,"` gives `["a"]`); the pieces removed are all empty; with no comma the result is the value itself |
| `Http.GetAll` | http-vertx/src/main/java/com/microsoft/kiota/http/VertXRequestAdapter.java:532 | `getAll` returns a value exactly when some header with that name, up to ASCII case, has it |
| `Http.Get` | http-vertx/src/main/java/com/microsoft/kiota/http/VertXRequestAdapter.java:375 | `get` is null exactly when `getAll` is empty, and otherwise returns the first of its values |
| `Http.ReadAllBytes` | http-vertx/src/main/java/com/microsoft/kiota/http/VertXRequestAdapter.java:473 | the bytes read are the rest of the stream from its position, and the stream is left at its end. Data, read limit and mark support are unchanged. A mark survives exactly when the read does not go past its limit, and then is the same mark |
| `Http.ResetRestoresMarkedStream` | http-vertx/src/main/java/com/microsoft/kiota/http/VertXRequestAdapter.java:511-516 | a stream marked at its read position, with a mark that outlasts reading it to the end, is brought back by read-then-reset to exactly the stream it was, and a second read yields the same bytes |
| `Http.ByteArrayStreamRewinds` | http-vertx/src/main/java/com/microsoft/kiota/http/VertXRequestAdapter.java:511-516 | a fresh `ByteArrayInputStream` (marked at 0, never expiring) is brought back by read-then-reset to exactly where it started |
| `Http.ExpiredMarkCannotReset` | http-vertx/src/main/java/com/microsoft/kiota/http/VertXRequestAdapter.java:511-516 | when the read goes past the limit of the mark, `reset()` after it fails |
| `Http.SetBaseUrl` | http-vertx/src/main/java/com/microsoft/kiota/http/VertXRequestAdapter.java:556-559 | after injection `baseurl` maps to the base URL; every other path parameter and every other field of the request is unchanged |
| `Http.SetBaseUrlIdempotent` | http-vertx/src/main/java/com/microsoft/kiota/http/VertXRequestAdapter.java:453 | the retry's second injection of the base URL leaves the request as the first injection did |
| `Http.GetResponseHandler` | http-vertx/src/main/java/com/microsoft/kiota/http/VertXRequestAdapter.java:152-161 | the result is the handler of the first `ResponseHandlerOption`, even when that handler is null; with no such option it is null |
| `ErrorMapping.GetRootParseNode` | http-vertx/src/main/java/com/microsoft/kiota/http/VertXRequestAdapter.java:367-380 | a root node exists exactly when the body is non-null and a `Content-Type` header is present; it is built from that body and the first `Content-Type` value |
| `ErrorMapping.FirstPresent` | http-vertx/src/main/java/com/microsoft/kiota/http/VertXRequestAdapter.java:415-420 | the reference lookup: null exactly when no candidate key is present, otherwise the entry of the first candidate present |
| `ErrorMapping.WildcardIsNotAStatus` | http-vertx/src/main/java/com/microsoft/kiota/http/VertXRequestAdapter.java:396-399 | the rendered status is never `4XX` or `5XX`, so the exact lookup cannot hit a wildcard entry |
| `ErrorMapping.ResolveFollowsPrecedence` | http-vertx/src/main/java/com/microsoft/kiota/http/VertXRequestAdapter.java:395-420 | resolution is null for a null table, and otherwise picks the first present key of: exact code, `4XX` for 400..499, `5XX` for 500..599 |
| `ErrorMapping.ExactKeyWins` | http-vertx/src/main/java/com/microsoft/kiota/http/VertXRequestAdapter.java:415-417 | an exact status-code entry is chosen over both wildcards |
| `ErrorMapping.WildcardOnlyInItsRange` | http-vertx/src/main/java/com/microsoft/kiota/http/VertXRequestAdapter.java:397-402 | outside 400..499 the `4XX` entry, and outside 500..599 the `5XX` entry, can be added, changed or removed without changing the resolution |
| `ErrorMapping.OtherStatusesOnlyExact` | http-vertx/src/main/java/com/microsoft/kiota/http/VertXRequestAdapter.java:395-402 | a status outside 400..599 resolves to an entry exactly when its exact key is present |
| `ErrorMapping.ThrowIfFailedResponse` | http-vertx/src/main/java/com/microsoft/kiota/http/VertXRequestAdapter.java:386-446 | the response passes, unchanged, exactly for 200..299. Otherwise the error carries its status and headers. It is generic exactly when no entry applies, missing-body exactly when one applies and there is no root node, and mapped otherwise, with the resolved class and the root node |
| `ErrorMapping.UnmappedIgnoresBody` | http-vertx/src/main/java/com/microsoft/kiota/http/VertXRequestAdapter.java:395-413 | with no applicable entry the generic error carries exactly the status and headers, and does not depend on the body: no parsing happens |
| `Claims.StripBearerPrefix` | http-vertx/src/main/java/com/microsoft/kiota/http/VertXRequestAdapter.java:538 | the result is a suffix of the value; it is shorter exactly when the value starts with the case-sensitive `Bearer` plus one space, and then by those 7 characters |
| `Claims.FirstBearerValue` | http-vertx/src/main/java/com/microsoft/kiota/http/VertXRequestAdapter.java:535-541 | null exactly when no value matches `^Bearer\s.*`, otherwise the first matching value |
| `Claims.ClaimsParameterValue` | http-vertx/src/main/java/com/microsoft/kiota/http/VertXRequestAdapter.java:545-547 | a captured claims value is non-empty, contains no `"`, and fills the parameter apart from the optional space and the 9 fixed characters |
| `Claims.ClaimsParameterSound` | http-vertx/src/main/java/com/microsoft/kiota/http/VertXRequestAdapter.java:502-503 | every parameter the matcher accepts is at most one space, `claims` in some case, `="`, the captured value and `"` |
| `Claims.ClaimsParameterComplete` | http-vertx/src/main/java/com/microsoft/kiota/http/VertXRequestAdapter.java:502-503 | every parameter of that shape is accepted and yields exactly its value |
| `Claims.FirstClaimsParameter` | http-vertx/src/main/java/com/microsoft/kiota/http/VertXRequestAdapter.java:543-549 | null exactly when no parameter matches, otherwise the value of the first matching parameter; such a value is non-empty and has no `"` |
| `Claims.GetClaimsFromResponse` | http-vertx/src/main/java/com/microsoft/kiota/http/VertXRequestAdapter.java:524-554 | null unless the status is 401, no claims were sent, and the content is absent or supports mark; under those conditions, the claims of the first Bearer challenge. A value is returned only when some `WWW-Authenticate` value passes the Bearer test, and it is non-empty and has no `"` |
| `Claims.FirstClaimsIgnoresEmptyTail` | http-vertx/src/main/java/com/microsoft/kiota/http/VertXRequestAdapter.java:543-549 | trailing empty parameters never change which claims are found |
| `Claims.JavaSplitIrrelevantToClaims` | http-vertx/src/main/java/com/microsoft/kiota/http/VertXRequestAdapter.java:543-549 | Java's removal of trailing empty pieces in `split` does not affect the extracted claims |
| `Claims.NonCanonicalBearerLosesFirstParameter` | http-vertx/src/main/java/com/microsoft/kiota/http/VertXRequestAdapter.java:536-545 | a value that passes the Bearer test without the exact spelling `Bearer` keeps its prefix, and its first parameter can never yield claims |
| `Claims.LowercaseBearerYieldsNothing` | http-vertx/src/main/java/com/microsoft/kiota/http/VertXRequestAdapter.java:536-549 | `bearer claims="v"` passes the Bearer test (for `v` without line terminators), keeps its prefix and yields no claims |
| `Claims.CanonicalBearerYieldsClaims` | http-vertx/src/main/java/com/microsoft/kiota/http/VertXRequestAdapter.java:538-548 | `Bearer claims="v"` yields `v` |
| `Claims.CanonicalChallengeMatches` | http-vertx/src/main/java/com/microsoft/kiota/http/VertXRequestAdapter.java:535-536 | `Bearer claims="v"` passes the Bearer test whenever `v` has no line terminator |
| `Claims.ChallengeYieldsClaims` | http-vertx/src/main/java/com/microsoft/kiota/http/VertXRequestAdapter.java:528-549 | a 401 with the single challenge `Bearer claims="v"`, no claims sent, and rewindable or absent content yields `v` |
| `Exchange.AdditionalContext` | http-vertx/src/main/java/com/microsoft/kiota/http/VertXRequestAdapter.java:454-457 | the context has no key but `claims`, and has it exactly when the claims are non-null and non-empty, mapped to them |
| `Exchange.ReadContent` | http-vertx/src/main/java/com/microsoft/kiota/http/VertXRequestAdapter.java:469-479 | a body is sent exactly when there is content and reading it yields at least one byte, and then it is exactly those bytes; the stream left behind is the stream after the read, and no content leaves no stream |
| `Exchange.RewindContent` | http-vertx/src/main/java/com/microsoft/kiota/http/VertXRequestAdapter.java:511-517 | absent content and content without mark support are passed through unchanged; it fails, with the fatal reset error, exactly when the content supports mark and `reset()` fails; otherwise the content is the reset stream |
| `Exchange.Prepare` | http-vertx/src/main/java/com/microsoft/kiota/http/VertXRequestAdapter.java:450-479 | the wire request keeps the request's method, URL template and headers, has the injected path parameters, and its body is what reading the content gives; the descriptor left behind is the injected one with the content as read, which keeps its presence and mark support, as the retry guard needs |
| `Exchange.GetHttpResponseMessage` | http-vertx/src/main/java/com/microsoft/kiota/http/VertXRequestAdapter.java:450-498 | a send makes one or two exchanges, and exactly one when claims were passed in. Each reply is the transport's answer to that request at that exchange number. The first request is the prepared request, and its context is the claims context. A second exchange happens only after a first reply with a claims challenge, has a context holding exactly those claims, and its reply is the result, unchanged. After a challenge, the second exchange happens exactly when the read content can be rewound, and a failing rewind ends in the fatal reset error. With one exchange the result is its reply or the reset failure |
| `Exchange.RetryCaeResponseIfRequired` | http-vertx/src/main/java/com/microsoft/kiota/http/VertXRequestAdapter.java:505-522 | without extracted claims the response is returned unchanged, with no exchange. With extracted claims, exactly one more exchange happens (the next one in number) exactly when the rewind succeeds; its context holds the extracted claims and its reply is the result. When the rewind fails the result is the fatal reset error |
| `Exchange.ExchangeWithRetry` | http-vertx/src/main/java/com/microsoft/kiota/http/VertXRequestAdapter.java:450-522 | the loop form of the exchange ends with the same result, and its exchange counter, which numbers the exchanges for the transport, equals the length of the log and never exceeds two |
| `Exchange.NoChallengeNoRetry` | http-vertx/src/main/java/com/microsoft/kiota/http/VertXRequestAdapter.java:509-521 | when the transport answers the first request with a response that yields no claims, there is one exchange and that response is the result |
| `Exchange.NonRewindableBodyNoRetry` | http-vertx/src/main/java/com/microsoft/kiota/http/VertXRequestAdapter.java:528-531 | content without mark support means exactly one exchange, whose reply is returned unmodified, whatever the reply |
| `Exchange.RetryResendsSameRequest` | http-vertx/src/main/java/com/microsoft/kiota/http/VertXRequestAdapter.java:511-519 | when the first reply carries a claims challenge and the content rewinds to where it started, there are exactly two exchanges and the second puts the identical wire request (method, URL, path parameters, headers and body) on the wire; only its unused context holds the extracted claims |
| `Exchange.RetryRepeatsReplyOfStatelessServer` | http-vertx/src/main/java/com/microsoft/kiota/http/VertXRequestAdapter.java:454-478 | for content that rewinds to where the first read began: because the claims context never reaches the wire, a server that answers by request alone gives the retry the same reply as the first exchange, and the send ends with the original challenge response |
| `Exchange.RetryRereadsFromMark` | http-vertx/src/main/java/com/microsoft/kiota/http/VertXRequestAdapter.java:473-516 | content read from position 1 of `[1, 2]` but marked at 0 sends body `[2]` first and, after a claims challenge, `[1, 2]` on the retry: the retry body is re-read from the mark |
| `Exchange.RetryFollowsChallenge` | http-vertx/src/main/java/com/microsoft/kiota/http/VertXRequestAdapter.java:497-519 | after a first reply with a claims challenge and a successful rewind, the log is that first exchange followed by the log of the call re-issued with the rewound content and the extracted claims |
| `Exchange.RewoundRequestRereads` | http-vertx/src/main/java/com/microsoft/kiota/http/VertXRequestAdapter.java:469-479 | content that rewinds to its start is restored by the reset, and the re-issued descriptor produces the first wire request again |
| `Exchange.ByteArrayContentRewinds` | http-vertx/src/main/java/com/microsoft/kiota/http/VertXRequestAdapter.java:511-516 | a `ByteArrayInputStream` body rewinds to its start, so it satisfies the premise of `Exchange.RetryResendsSameRequest` |
| `Exchange.ChallengeTriggersOneRetry` | http-vertx/src/main/java/com/microsoft/kiota/http/VertXRequestAdapter.java:509-519 | a first reply of 401 with `Bearer claims="v"`, on content that can still be reset after being read, causes exactly two exchanges, the second with context `{claims: v}` |
| `Exchange.InvalidMarkIsFatal` | http-vertx/src/main/java/com/microsoft/kiota/http/VertXRequestAdapter.java:511-516 | the same challenge on mark-supporting content left without a valid mark by the read (never marked, or read past the limit) ends, after one exchange, in the fatal reset error |
| `Send.InterpretResponse` | http-vertx/src/main/java/com/microsoft/kiota/http/VertXRequestAdapter.java:173-186 | without a handler the adapter itself raises nothing fatal. It raises exactly when the status is outside 200..299, with `throwIfFailedResponse`'s error. A 204 or no root node gives null; otherwise the result is the extraction from the root node |
| `Send.SendParsed` | http-vertx/src/main/java/com/microsoft/kiota/http/VertXRequestAdapter.java:163-193 | the exchange always happens first, also when a handler is present. A transport or reset failure aborts. With a handler, its result for the final response is returned; without one, the interpretation above |
| `Send.InterpretPrimitive` | http-vertx/src/main/java/com/microsoft/kiota/http/VertXRequestAdapter.java:210-271 | it raises exactly for statuses outside 200..299. It is fatal only for `InputStream` with a null body or for an unknown class. Raw bytes come only for `InputStream` and are the body; a parsed value comes only from a typed getter on the root node |
| `Send.SendPrimitive` | http-vertx/src/main/java/com/microsoft/kiota/http/VertXRequestAdapter.java:201-275 | the same exchange-then-handler skeleton around the primitive dispatch |
| `Send.NoContentReturnsNull` | http-vertx/src/main/java/com/microsoft/kiota/http/VertXRequestAdapter.java:177-179 | without a handler a 204 makes both the parse-node variants and `sendPrimitive` return null, whatever the extraction or target class |
| `Send.FailingStatusRaises` | http-vertx/src/main/java/com/microsoft/kiota/http/VertXRequestAdapter.java:386-412 | without a handler a status outside 200..299 never returns normally: the error carries that status and those headers, and `sendPrimitive` raises the same error as the parse-node variants, whatever its target class |
| `Send.SuccessReturnsExtractedValue` | http-vertx/src/main/java/com/microsoft/kiota/http/VertXRequestAdapter.java:180-186 | a 2xx other than 204 with body `b` and `Content-Type` `ct` returns the shape's extraction from the node built from `ct` and `b` |
| `Send.HandlerResultReturnedVerbatim` | http-vertx/src/main/java/com/microsoft/kiota/http/VertXRequestAdapter.java:171-192 | with a handler, once the exchange ends with a response, the handler's result for it is returned whatever the status, and the extraction plays no part |
| `Send.VoidReturnsNull` | http-vertx/src/main/java/com/microsoft/kiota/http/VertXRequestAdapter.java:217-218 | `Void` returns null for every passing response |
| `Send.InputStreamReturnsRawBody` | http-vertx/src/main/java/com/microsoft/kiota/http/VertXRequestAdapter.java:220-226 | `InputStream` returns the raw body with no parse node needed, and fails fatally on a null body |
| `Send.UnknownKindFatalOnlyWithNode` | http-vertx/src/main/java/com/microsoft/kiota/http/VertXRequestAdapter.java:227-265 | an unknown target class gives null when there is no root node, and otherwise the fatal `unexpected payload type` error naming the class |
| `Send.TypedKindReturnsGetterValue` | http-vertx/src/main/java/com/microsoft/kiota/http/VertXRequestAdapter.java:227-267 | for a typed target class and a passing non-204 response: no root node gives null, a getter yielding null gives null, and otherwise the result is exactly the getter's value |

## Left out

- The Vert.x `WebClient` is not modelled. This covers building the absolute URL
  (`getUri()`), converting headers and the HTTP method, following redirects, the
  asynchronous send, and the `CompletableFuture` bridge. All of it is the `transport`
  parameter, and each of its exceptions (URI syntax, I/O, execution, interruption) is one
  `TransportError`.
- `ParseNodeFactory` and the `ParseNode` getters are foreign. A node records the content
  type and bytes it is built from, and each getter is a function parameter.
- `ApiExceptionBuilder` is foreign. An error records its status, headers and message, or
  its class and node. The mapped payload's lazy construction is not modelled.
- `HeadersCompatibility` and `HttpMethodCompatibility` are foreign. Response headers
  pass through unchanged, and the method is kept as a string.
- Header names are compared ASCII-case-insensitively. That is the behaviour of Vert.x's
  `MultiMap`, which is not part of this model.
- `ResponseHandler.handleResponse` is foreign and is a function parameter.
- The iteration order of `getRequestOptions()` belongs to `RequestInformation`, which is
  not part of this model. The options are a sequence in that order.
- `enableBackingStore` is left out: it mutates a global singleton and wraps external
  factories.
- `convertToNativeRequest` and `getRequestFromRequestInformation` are left out: they
  build URLs through external classes.
- `closeResponse` is left out: it does nothing.
- The constructors' default wiring, `getSerializationWriterFactory`, `getBaseUrl` and
  `setBaseUrl` are left out. The base URL is a parameter of every send.
- Primitive extraction, floats and doubles included, is left to the foreign getter. The
  model keeps only the kind tags and the dispatch order.
- `Objects.requireNonNull` checks on the request, factory, enum parser and target class
  are left out: those arguments are Dafny values and cannot be null.
- A null factory stored under a present key of the error-mapping table is left out: table
  entries are never null.
- An `IOException` from `readAllBytes()` on the in-memory content is left out. A failing
  `reset()` is modelled.
- Java strings are UTF-16 code units, while Dafny's `char` is a Unicode scalar value.
  Header text outside the Basic Multilingual Plane is not modelled.
- A `URISyntaxException` from `getUri()` (`:466`) is thrown before anything is sent, but
  the model logs it as a transport call that failed: the log counts transport calls,
  not requests that reached the network.
- The query parameters and the raw `uri` of `RequestInformation` are left out. They
  reach the wire only through `getUri()` (`:466`), which is not part of this model, and
  the adapter never changes them.
- The mutation of the caller's `RequestInformation` (the injected base URL and the
  consumed content stream) is returned by `Exchange.GetHttpResponseMessage`, but the
  send variants do not return it.
- `Send.InterpretResponse`: does not model exceptions thrown by the foreign parse-node
  getters or the extraction, because those are foreign code; a getter is a total
  function parameter, so "never fatal" covers only what the adapter raises itself.
- `ErrorMapping.GetRootParseNode`: does not model exceptions from the foreign
  `ParseNodeFactory` (an unsupported content type, for instance), because the factory is
  foreign; a node is always built when body and `Content-Type` are present.
- The adapter never calls `mark`: the content's mark and its read limit are whatever
  the stream had when it reached the adapter.
- The additional context is kept in the exchange log. The model does not pass it
  anywhere, because the code does not either.
- `Http.GetAll`: its contract states membership in both directions but not order or
  multiplicity. The order is fixed by its definition, which `Claims.FirstBearerValue`
  relies on.
- The integration tests are left out: they are end-to-end HTTP tests against a running
  server, with no local logic.

=== FILE: claims.dfy ===
/**
 Claims-challenge extraction (`getClaimsFromResponse`): the value of the
 `claims` parameter of a Bearer challenge in a `WWW-Authenticate` header, in
 the style of section 3 of RFC 6750 and of continuous access evaluation.

 The two java.util.regex patterns are written out as character predicates:
 - `^Bearer\s.*`, CASE_INSENSITIVE, must match the whole header value;
 - `\s?claims="([^"]+)"`, CASE_INSENSITIVE, must match a whole parameter,
   and group 1 is the claims value.
 CASE_INSENSITIVE without UNICODE_CASE folds ASCII letters only; `\s` is
 [ \t\n\x0B\f\r]; `.` matches anything but a line terminator. The prefix is
 removed with the case-SENSITIVE `replaceFirst("^Bearer\\s", "")`, so a
 value that passes the test as `bearer ...` keeps its prefix.
 */
module Claims {
  import opened Outcomes
  import opened Strings
  import opened Http

  const AuthenticateHeader := "WWW-Authenticate"
  const StatusUnauthorized := 401

  /** `\s` of java.util.regex. */
  predicate IsRegexSpace(c: char) {
    c == ' ' || c == '\t' || c == '\n' || c == '\U{000B}' || c == '\U{000C}' || c == '\r'
  }

  /** The characters `.` does not match when DOTALL is off. */
  predicate IsLineTerminator(c: char) {
    c == '\n' || c == '\r' || c == '\U{0085}' || c == '\U{2028}' || c == '\U{2029}'
  }

  // ---------------------------------------------------------------------------
  // ^Bearer\s.*   and   replaceFirst("^Bearer\\s", "")
  // ---------------------------------------------------------------------------

  /** `bearerPattern.matcher(s).matches()`. */
  predicate MatchesBearer(s: string) {
    && 7 <= |s|
    && EqualsIgnoreCase(s[..6], "Bearer")
    && IsRegexSpace(s[6])
    && forall i :: 7 <= i < |s| ==> !IsLineTerminator(s[i])
  }

  /** Whether `s` starts with exactly "Bearer" followed by one regex space. */
  predicate HasCanonicalBearerPrefix(s: string) {
    7 <= |s| && s[..6] == "Bearer" && IsRegexSpace(s[6])
  }

  /**
   `s.replaceFirst("^Bearer\\s", "")`: the result is a suffix of `s`, and it is
   shorter exactly when `s` starts with the case-sensitive prefix, which is all
   that is removed.
   */
  function StripBearerPrefix(s: string): (r: string)
    ensures |r| <= |s| && r == s[|s| - |r|..]
    ensures |r| < |s| <==> HasCanonicalBearerPrefix(s)
    ensures |r| < |s| ==> |s| - |r| == 7
  {
    if HasCanonicalBearerPrefix(s) then s[7..] else s
  }

  /** The first value that matches the Bearer pattern, or null. */
  function FirstBearerValue(values: seq<string>): (r: Option<string>)
    ensures r.None? <==> forall i :: 0 <= i < |values| ==> !MatchesBearer(values[i])
    ensures forall i :: (0 <= i < |values| && MatchesBearer(values[i]) && forall j :: 0 <= j < i ==> !MatchesBearer(values[j]))
              ==> r == Some(values[i])
  {
    if |values| == 0 then None
    else if MatchesBearer(values[0]) then Some(values[0])
    else FirstBearerValue(values[1..])
  }

  // ---------------------------------------------------------------------------
  // \s?claims="([^"]+)"
  // ---------------------------------------------------------------------------

  /** How many leading characters `\s?` consumes: one when the parameter starts with a space. */
  function LeadLength(p: string): nat {
    if 0 < |p| && IsRegexSpace(p[0]) then 1 else 0
  }

  /** `claimsPattern.matcher(p)`: group 1 when the whole parameter matches, null otherwise. */
  function ClaimsParameterValue(p: string): (v: Option<string>)
    ensures v.Some? ==> 0 < |v.value| && '"' !in v.value
    ensures v.Some? ==> |p| == LeadLength(p) + 9 + |v.value|
  {
    var rest := p[LeadLength(p)..];
    if && 10 <= |rest|
       && EqualsIgnoreCase(rest[..6], "claims")
       && rest[6] == '='
       && rest[7] == '"'
       && rest[|rest| - 1] == '"'
       && '"' !in rest[8..|rest| - 1]
    then Some(rest[8..|rest| - 1])
    else None
  }

  /**
   The language of the claims pattern, stated as a decomposition: at most one
   leading space, "claims" in any ASCII case, `="`, a non-empty value without
   quotes, and a closing quote.
   */
  ghost predicate ClaimsShape(p: string, lead: string, key: string, v: string) {
    && |lead| <= 1
    && (forall i :: 0 <= i < |lead| ==> IsRegexSpace(lead[i]))
    && EqualsIgnoreCase(key, "claims")
    && 0 < |v| && '"' !in v
    && p == lead + key + "=\"" + v + "\""
  }

  /** Every value the matcher returns comes from a parameter of the pattern's shape. */
  lemma ClaimsParameterSound(p: string)
    requires ClaimsParameterValue(p).Some?
    ensures ClaimsShape(p, p[..LeadLength(p)], p[LeadLength(p)..LeadLength(p) + 6], ClaimsParameterValue(p).value)
  {
    var n := LeadLength(p);
    var rest := p[n..];
    var v := ClaimsParameterValue(p).value;
    var m := |p| - 1;
    assert EqualsIgnoreCase(rest[..6], "claims");
    assert rest[..6] == p[n..n + 6];
    assert v == rest[8..|rest| - 1];
    assert |v| == |p[n + 8..m]| && forall i :: 0 <= i < |v| ==> v[i] == p[n + 8..m][i];
    assert p[n + 6..n + 8] == "=\"";
    assert p[m..] == "\"";
    assert p[..n + 6] == p[..n] + p[n..n + 6];
    assert p[..n + 8] == p[..n + 6] + p[n + 6..n + 8];
    assert p[..m] == p[..n + 8] + p[n + 8..m];
    assert p == p[..m] + p[m..];
  }

  /** Every parameter of the pattern's shape is matched, and its value is the one returned. */
  lemma ClaimsParameterComplete(p: string, lead: string, key: string, v: string)
    requires ClaimsShape(p, lead, key, v)
    ensures ClaimsParameterValue(p) == Some(v)
  {
    if |lead| == 0 {
      assert p[0] == key[0];
      assert AsciiLower(key[0]) == 'c';
      assert LeadLength(p) == 0;
    } else {
      assert p[0] == lead[0];
      assert LeadLength(p) == 1;
    }
    var rest := p[LeadLength(p)..];
    assert rest == key + "=\"" + v + "\"";
    assert rest[..6] == key;
    assert rest[8..|rest| - 1] == v;
  }

  /** The value of the first parameter that matches the claims pattern, or null. */
  function FirstClaimsParameter(params: seq<string>): (r: Option<string>)
    ensures r.Some? ==> 0 < |r.value| && '"' !in r.value
    ensures r.None? <==> forall i :: 0 <= i < |params| ==> ClaimsParameterValue(params[i]).None?
    ensures forall i ::
              (0 <= i < |params| && ClaimsParameterValue(params[i]).Some?
               && forall j :: 0 <= j < i ==> ClaimsParameterValue(params[j]).None?)
              ==> r == ClaimsParameterValue(params[i])
  {
    if |params| == 0 then None
    else if ClaimsParameterValue(params[0]).Some? then ClaimsParameterValue(params[0])
    else FirstClaimsParameter(params[1..])
  }

  // ---------------------------------------------------------------------------
  // getClaimsFromResponse
  // ---------------------------------------------------------------------------

  /** The claims carried by one Bearer challenge value: prefix stripped, split on ',', first match. */
  function ClaimsFromChallenge(value: string): Option<string> {
    FirstClaimsParameter(JavaSplit(StripBearerPrefix(value), ','))
  }

  /** The claims of the first Bearer challenge among the `WWW-Authenticate` values; later challenges are not examined. */
  function ClaimsFromHeaders(headers: Headers): Option<string> {
    match FirstBearerValue(GetAll(headers, AuthenticateHeader))
    case None => None
    case Some(challenge) => ClaimsFromChallenge(challenge)
  }

  /**
   The guard of `getClaimsFromResponse`: a 401, no claims sent yet (null or
   empty), and a request body that is absent or supports mark/reset.
   */
  predicate RetryEligible(status: int, content: Option<Stream>, claims: Option<string>) {
    && status == StatusUnauthorized
    && !NonEmpty(claims)
    && (content.None? || content.value.markSupported)
  }

  /** `getClaimsFromResponse`: null unless the guard holds; otherwise the claims of the first Bearer challenge. */
  function GetClaimsFromResponse(resp: Response, content: Option<Stream>, claims: Option<string>): (r: Option<string>)
    ensures !RetryEligible(resp.status, content, claims) ==> r.None?
    ensures RetryEligible(resp.status, content, claims) ==> r == ClaimsFromHeaders(resp.headers)
    ensures r.Some? ==> 0 < |r.value| && '"' !in r.value
    ensures r.Some? ==> FirstBearerValue(GetAll(resp.headers, AuthenticateHeader)).Some?
  {
    if RetryEligible(resp.status, content, claims) then ClaimsFromHeaders(resp.headers) else None
  }

  // ---------------------------------------------------------------------------
  // Properties
  // ---------------------------------------------------------------------------

  /** A run of empty parameters at the end never matches, so trimming it does not change the result. */
  lemma {:induction false} FirstClaimsIgnoresEmptyTail(params: seq<string>, k: nat)
    requires k <= |params|
    requires forall i :: k <= i < |params| ==> params[i] == ""
    ensures FirstClaimsParameter(params[..k]) == FirstClaimsParameter(params)
  {
    if k == 0 {
      assert forall i :: 0 <= i < |params| ==> ClaimsParameterValue(params[i]).None?;
    } else if ClaimsParameterValue(params[0]).None? {
      FirstClaimsIgnoresEmptyTail(params[1..], k - 1);
      assert params[..k][1..] == params[1..][..k - 1];
    }
  }

  /** Java's trailing-empty removal in `split` never changes which claims are found. */
  lemma JavaSplitIrrelevantToClaims(s: string)
    ensures FirstClaimsParameter(JavaSplit(s, ',')) == FirstClaimsParameter(SplitAll(s, ','))
  {
    var all := SplitAll(s, ',');
    var kept := JavaSplit(s, ',');
    assert kept == all[..|kept|];
    FirstClaimsIgnoresEmptyTail(all, |kept|);
  }

  /**
   When the Bearer test passes on a value whose prefix is not spelled exactly
   "Bearer", the prefix stays on the first parameter, so that parameter can
   never yield the claims; only later parameters can.
   */
  lemma NonCanonicalBearerLosesFirstParameter(s: string)
    requires MatchesBearer(s) && s[..6] != "Bearer"
    ensures StripBearerPrefix(s) == s
    ensures ClaimsParameterValue(JavaSplit(StripBearerPrefix(s), ',')[0]).None?
  {
    var parts := SplitAll(s, ',');
    assert s[0] == s[..6][0];
    assert AsciiLower(s[0]) == 'b';
    assert s[0] != ',';
    var first := JavaSplit(s, ',')[0];
    assert first == parts[0];
    assert first[0] == s[0];
    assert LeadLength(first) == 0;
    if 6 <= |first| {
      assert first[..6][0] == s[0];
    }
  }

  /** A challenge value holding a single `claims` parameter after the given scheme spelling. */
  function SingleClaimsChallenge(prefix: string, v: string): string {
    prefix + " claims=\"" + v + "\""
  }

  /** Whether `v` can be the whole value of a single claims parameter. */
  predicate PlainClaimsValue(v: string) {
    0 < |v| && '"' !in v && ',' !in v
  }

  /** `Bearer claims="v"` yields `v`. */
  lemma CanonicalBearerYieldsClaims(v: string)
    requires PlainClaimsValue(v)
    ensures ClaimsFromChallenge(SingleClaimsChallenge("Bearer", v)) == Some(v)
  {
    var s := SingleClaimsChallenge("Bearer", v);
    assert s[..6] == "Bearer";
    var stripped := StripBearerPrefix(s);
    assert stripped == "claims=\"" + v + "\"";
    assert ',' !in stripped;
    ClaimsParameterComplete(stripped, "", "claims", v);
  }

  /**
   The case quirk: `bearer claims="v"` passes the case-insensitive Bearer test
   (when `v` has no line terminator), keeps its prefix, and yields no claims.
   */
  lemma LowercaseBearerYieldsNothing(v: string)
    requires PlainClaimsValue(v)
    ensures (forall i :: 0 <= i < |v| ==> !IsLineTerminator(v[i])) ==> MatchesBearer(SingleClaimsChallenge("bearer", v))
    ensures StripBearerPrefix(SingleClaimsChallenge("bearer", v)) == SingleClaimsChallenge("bearer", v)
    ensures ClaimsFromChallenge(SingleClaimsChallenge("bearer", v)).None?
  {
    var s := SingleClaimsChallenge("bearer", v);
    assert s[..6] == "bearer";
    assert s[..6][0] == 'b';
    assert StripBearerPrefix(s) == s;
    assert ',' !in s;
    assert s[0] == 'b';
    assert LeadLength(s) == 0;
    assert !EqualsIgnoreCase(s[..6], "claims") by {
      assert AsciiLower(s[..6][0]) != AsciiLower("claims"[0]);
    }
    if forall i :: 0 <= i < |v| ==> !IsLineTerminator(v[i]) {
      assert forall i :: 7 <= i < |s| ==> s[i] in " claims=\"\"" || s[i] in v;
    }
  }

  /**
   A 401 whose only challenge is `Bearer claims="v"`, with no claims sent yet
   and a rewindable or absent body, yields `v`.
   */
  lemma ChallengeYieldsClaims(v: string, body: Option<seq<byte>>, content: Option<Stream>, claims: Option<string>)
    requires PlainClaimsValue(v) && forall i :: 0 <= i < |v| ==> !IsLineTerminator(v[i])
    requires content.None? || content.value.markSupported
    requires !NonEmpty(claims)
    ensures GetClaimsFromResponse(
      Response(401, [Header(AuthenticateHeader, SingleClaimsChallenge("Bearer", v))], body), content, claims) == Some(v)
  {
    var value := SingleClaimsChallenge("Bearer", v);
    var hs := [Header(AuthenticateHeader, value)];
    assert EqualsIgnoreCase(AuthenticateHeader, AuthenticateHeader);
    assert GetAll(hs, AuthenticateHeader) == [value];
    CanonicalChallengeMatches(v);
    CanonicalBearerYieldsClaims(v);
  }

  /** `Bearer claims="v"` passes the Bearer test when `v` has no line terminator. */
  lemma CanonicalChallengeMatches(v: string)
    requires PlainClaimsValue(v) && forall i :: 0 <= i < |v| ==> !IsLineTerminator(v[i])
    ensures MatchesBearer(SingleClaimsChallenge("Bearer", v))
  {
    var value := SingleClaimsChallenge("Bearer", v);
    assert value[..6] == "Bearer";
    assert forall i :: 7 <= i < |value| ==> value[i] in " claims=\"\"" || value[i] in v;
  }
}

=== FILE: error_mapping.dfy ===
/**
 Failure classification of a response: `throwIfFailedResponse`, with the
 error-class resolution it performs over the caller's error-mapping table,
 `getRootParseNode` and `shouldReturnNull`.

 The parse-node factory is foreign: a `ParseNode` only records the content
 type and the bytes it was built from, and a mapped error records the error
 class and the node its payload would be read from lazily.
 */
module ErrorMapping {
  import opened Outcomes
  import opened Strings
  import opened Http

  /** An entry of the error-mapping table: the factory of a typed error. */
  datatype ErrorClass = ErrorClass(name: string)

  /** The nullable `HashMap<String, ParsableFactory>` passed to every send. */
  type ErrorMappings = Option<map<string, ErrorClass>>

  /** The node `pNodeFactory.getParseNode(contentType, body)` builds. */
  datatype ParseNode = ParseNode(contentType: string, body: seq<byte>)

  /** The three `ApiException`s the adapter raises; each carries the response's status and headers. */
  datatype ApiError =
    | Unmapped(status: int, headers: Headers, message: string)
    | MissingBody(status: int, headers: Headers, message: string)
    | Mapped(status: int, headers: Headers, errorClass: ErrorClass, node: ParseNode)

  const ContentTypeHeader := "Content-Type"
  const ClientErrorKey := "4XX"
  const ServerErrorKey := "5XX"

  // ---------------------------------------------------------------------------
  // getRootParseNode and shouldReturnNull
  // ---------------------------------------------------------------------------

  /** `getRootParseNode`: null when the body or the Content-Type header is missing, otherwise the parsed body. */
  function GetRootParseNode(resp: Response): (n: Option<ParseNode>)
    ensures n.Some? <==> resp.body.Some? && GetAll(resp.headers, ContentTypeHeader) != []
    ensures n.Some? ==> n.value.body == resp.body.value
    ensures n.Some? ==> n.value.contentType == GetAll(resp.headers, ContentTypeHeader)[0]
  {
    if resp.body.None? then None
    else match Get(resp.headers, ContentTypeHeader)
      case None => None
      case Some(contentType) => Some(ParseNode(contentType, resp.body.value))
  }

  /** `shouldReturnNull`: a 204 No Content. */
  predicate ShouldReturnNull(resp: Response) {
    resp.status == 204
  }

  // ---------------------------------------------------------------------------
  // Error-class resolution
  // ---------------------------------------------------------------------------

  predicate IsClientError(status: int) {
    400 <= status < 500
  }

  predicate IsServerError(status: int) {
    500 <= status < 600
  }

  /** The negation of the guard of the generic-error branch: some key of the table applies to `status`. */
  predicate HasApplicableEntry(status: int, m: map<string, ErrorClass>) {
    || IntToString(status) in m
    || (IsClientError(status) && ClientErrorKey in m)
    || (IsServerError(status) && ServerErrorKey in m)
  }

  /** The entry chosen once one is known to apply: the exact key, else "4XX" for 4xx, else "5XX". */
  function SelectErrorClass(status: int, m: map<string, ErrorClass>): ErrorClass
    requires HasApplicableEntry(status, m)
  {
    var code := IntToString(status);
    if code in m then m[code]
    else if IsClientError(status) then m[ClientErrorKey]
    else m[ServerErrorKey]
  }

  /** The error class `throwIfFailedResponse` uses for `status`, or None for the generic error. */
  function ResolveErrorClass(status: int, mappings: ErrorMappings): Option<ErrorClass> {
    if mappings.None? || !HasApplicableEntry(status, mappings.value) then None
    else Some(SelectErrorClass(status, mappings.value))
  }

  /** The keys that apply to `status`, most specific first. */
  function CandidateKeys(status: int): seq<string> {
    [IntToString(status)]
      + (if IsClientError(status) then [ClientErrorKey] else [])
      + (if IsServerError(status) then [ServerErrorKey] else [])
  }

  /** The entry of the first key of `keys` present in `m`. */
  function FirstPresent(keys: seq<string>, m: map<string, ErrorClass>): (r: Option<ErrorClass>)
    ensures r.None? <==> forall i :: 0 <= i < |keys| ==> keys[i] !in m
    ensures forall i :: (0 <= i < |keys| && keys[i] in m && forall j :: 0 <= j < i ==> keys[j] !in m) ==> r == Some(m[keys[i]])
  {
    if |keys| == 0 then None
    else if keys[0] in m then Some(m[keys[0]])
    else FirstPresent(keys[1..], m)
  }

  /** The wildcard keys are never the rendering of a status code. */
  lemma WildcardIsNotAStatus(status: int)
    ensures IntToString(status) != ClientErrorKey && IntToString(status) != ServerErrorKey
  {
    var s := IntToString(status);
    if status >= 0 {
      assert IsDigit(s[|s| - 1]);
    } else {
      assert s[0] == '-';
    }
  }

  /**
   Resolution is "the first applicable key wins" over the precedence
   exact code, then "4XX" for 400..499, then "5XX" for 500..599.
   */
  lemma ResolveFollowsPrecedence(status: int, mappings: ErrorMappings)
    ensures mappings.None? ==> ResolveErrorClass(status, mappings).None?
    ensures mappings.Some? ==> ResolveErrorClass(status, mappings) == FirstPresent(CandidateKeys(status), mappings.value)
  {
    if mappings.Some? {
      var m := mappings.value;
      var keys := CandidateKeys(status);
      assert keys[0] == IntToString(status);
      WildcardIsNotAStatus(status);
      if IntToString(status) !in m && IsClientError(status) {
        assert keys[1] == ClientErrorKey;
      }
      if IntToString(status) !in m && IsServerError(status) {
        assert keys[1] == ServerErrorKey;
      }
      if !HasApplicableEntry(status, m) {
        assert forall i :: 0 <= i < |keys| ==> keys[i] !in m;
      }
    }
  }

  /** An exact status-code key wins over both wildcards. */
  lemma ExactKeyWins(status: int, m: map<string, ErrorClass>)
    requires IntToString(status) in m
    ensures ResolveErrorClass(status, Some(m)) == Some(m[IntToString(status)])
  {
  }

  /**
   "4XX" matters only for 400..499 and "5XX" only for 500..599: outside its
   range, adding, changing or removing a wildcard entry changes nothing.
   */
  lemma WildcardOnlyInItsRange(status: int, m: map<string, ErrorClass>, c: ErrorClass)
    ensures !IsClientError(status) ==>
      ResolveErrorClass(status, Some(m[ClientErrorKey := c])) == ResolveErrorClass(status, Some(m - {ClientErrorKey}))
    ensures !IsServerError(status) ==>
      ResolveErrorClass(status, Some(m[ServerErrorKey := c])) == ResolveErrorClass(status, Some(m - {ServerErrorKey}))
  {
    WildcardIsNotAStatus(status);
  }

  /** A status outside 400..599 (1xx, 3xx, 6xx and beyond) can only match its exact key. */
  lemma OtherStatusesOnlyExact(status: int, m: map<string, ErrorClass>)
    requires !IsClientError(status) && !IsServerError(status)
    ensures ResolveErrorClass(status, Some(m)).Some? <==> IntToString(status) in m
  {
  }

  // ---------------------------------------------------------------------------
  // throwIfFailedResponse
  // ---------------------------------------------------------------------------

  function UnmappedMessage(status: int): string {
    "the server returned an unexpected status code and no error class is registered for this code "
      + IntToString(status)
  }

  function MissingBodyMessage(status: int): string {
    "service returned status code" + IntToString(status) + " but no response body was found"
  }

  predicate IsSuccessStatus(status: int) {
    200 <= status < 300
  }

  /**
   `throwIfFailedResponse`: a 2xx response comes back unchanged; any other
   status raises, carrying the response's status code and headers. With no
   applicable entry the error is generic; with one, the body is parsed, and
   a missing node gives the missing-body error, a node the mapped error.
   */
  function ThrowIfFailedResponse(resp: Response, mappings: ErrorMappings): (r: Result<Response, ApiError>)
    ensures r.Success? <==> IsSuccessStatus(resp.status)
    ensures r.Success? ==> r.value == resp
    ensures r.Failure? ==> r.error.status == resp.status && r.error.headers == resp.headers
    ensures r.Failure? ==> (r.error.Unmapped? <==> ResolveErrorClass(resp.status, mappings).None?)
    ensures r.Failure? && ResolveErrorClass(resp.status, mappings).Some? ==>
      (r.error.MissingBody? <==> GetRootParseNode(resp).None?)
    ensures r.Failure? && r.error.Mapped? ==>
      Some(r.error.errorClass) == ResolveErrorClass(resp.status, mappings)
      && Some(r.error.node) == GetRootParseNode(resp)
  {
    if IsSuccessStatus(resp.status) then Success(resp)
    else match ResolveErrorClass(resp.status, mappings)
      case None => Failure(Unmapped(resp.status, resp.headers, UnmappedMessage(resp.status)))
      case Some(errorClass) =>
        match GetRootParseNode(resp)
        case None => Failure(MissingBody(resp.status, resp.headers, MissingBodyMessage(resp.status)))
        case Some(node) => Failure(Mapped(resp.status, resp.headers, errorClass, node))
  }

  /**
   With no applicable entry the body is never looked at: any two responses
   that differ only in their body fail with the same error.
   */
  lemma UnmappedIgnoresBody(resp: Response, body: Option<seq<byte>>, mappings: ErrorMappings)
    requires !IsSuccessStatus(resp.status)
    requires ResolveErrorClass(resp.status, mappings).None?
    ensures ThrowIfFailedResponse(resp, mappings) == ThrowIfFailedResponse(resp.(body := body), mappings)
    ensures ThrowIfFailedResponse(resp, mappings) == Failure(Unmapped(resp.status, resp.headers, UnmappedMessage(resp.status)))
  {
  }
}

=== FILE: exchange.dfy ===
/**
 The exchange and its one-shot claims retry: `getHttpResponseMessage` and
 `retryCAEResponseIfRequired`, with the Vert.x client and the
 asynchronous-to-synchronous bridge replaced by an abstract transport.

 The transport is given the number of exchanges already made in the logical
 send together with the wire request, so that the server may answer the
 first and the second exchange of the same request differently (a claims
 challenge, then a success).

 Every call records the wire requests it handed to the transport, the
 additional context it computed for each, and the replies it got, in order,
 as `attempts`; the number of transport calls of a logical send is the length
 of that log (a URI syntax error counts as a failed call). The
 additional context is computed and then dropped: the Vert.x request is
 built from the method, URL, headers and body alone.
 */
module Exchange {
  import opened Outcomes
  import opened Http
  import opened Claims

  const ClaimsKey := "claims"

  /** The server's reply to the `n`-th exchange (counting from 0) of one logical send. */
  type Transport = (nat, WireRequest) -> Reply

  /**
   One exchange: what was sent, the additional context computed for it (which
   never reaches the wire) and what came back.
   */
  datatype Attempt = Attempt(request: WireRequest, context: map<string, string>, reply: Reply)

  /** The response (or the fatal error), the request descriptor as the call left it, and the exchange log. */
  datatype Exchanged = Exchanged(outcome: Result<Response, Fatal>, request: RequestInfo, attempts: seq<Attempt>)

  /** The additional authentication context: `{"claims": claims}` when claims are non-empty, empty otherwise. */
  function AdditionalContext(claims: Option<string>): (ctx: map<string, string>)
    ensures ctx.Keys <= {ClaimsKey}
    ensures ClaimsKey in ctx <==> NonEmpty(claims)
    ensures ClaimsKey in ctx ==> ctx[ClaimsKey] == claims.value
  {
    if NonEmpty(claims) then map[ClaimsKey := claims.value] else map[]
  }

  /**
   The body put on the wire and the content stream after reading it: no body
   when there is no content or `readAllBytes()` yields nothing.
   */
  function ReadContent(content: Option<Stream>): (r: (Option<seq<byte>>, Option<Stream>))
    ensures r.0.Some? <==> content.Some? && 0 < |ReadAllBytes(content.value).0|
    ensures r.0.Some? ==> r.0.value == ReadAllBytes(content.value).0
    ensures content.None? ==> r.1.None?
    ensures content.Some? ==> r.1 == Some(ReadAllBytes(content.value).1)
  {
    match content
    case None => (None, None)
    case Some(s) =>
      var (bytes, after) := ReadAllBytes(s);
      (if 0 < |bytes| then Some(bytes) else None, Some(after))
  }

  /** The wire request for a descriptor whose content has been read. */
  function ToWire(req: RequestInfo, body: Option<seq<byte>>): WireRequest {
    WireRequest(req.httpMethod, req.urlTemplate, req.pathParameters, req.headers, body)
  }

  /** A reply as the call's result: the response, or the transport failure rethrown. */
  function ReplyOutcome(reply: Reply): Result<Response, Fatal> {
    match reply
    case Received(resp) => Success(resp)
    case TransportFailed(reason) => Failure(TransportError(reason))
  }

  /** Rewinds the content before a retry when it is present and supports mark/reset. */
  function RewindContent(content: Option<Stream>): (r: Result<Option<Stream>, Fatal>)
    ensures content.None? ==> r == Success(None)
    ensures content.Some? && !content.value.markSupported ==> r == Success(content)
    ensures r.Failure? <==> content.Some? && content.value.markSupported && Reset(content.value).None?
    ensures r.Failure? ==> r.error == ResetFailed
    ensures r.Success? && content.Some? && content.value.markSupported ==> r.value == Reset(content.value)
  {
    if content.Some? && content.value.markSupported then
      match Reset(content.value)
      case None => Failure(ResetFailed)
      case Some(rewound) => Success(Some(rewound))
    else Success(content)
  }

  /** Whether two content streams agree on what the retry guard looks at: presence and mark support. */
  predicate SameMarkSupport(a: Option<Stream>, b: Option<Stream>) {
    a.None? == b.None? && (a.Some? ==> a.value.markSupported == b.value.markSupported)
  }

  /**
   The request descriptor after base-URL injection and reading of the content,
   and the wire request built from it.
   */
  function Prepare(baseUrl: string, req: RequestInfo): (r: (RequestInfo, WireRequest))
    ensures r.1.httpMethod == req.httpMethod && r.1.urlTemplate == req.urlTemplate && r.1.headers == req.headers
    ensures r.1.pathParameters == SetBaseUrl(req, baseUrl).pathParameters
    ensures r.1.body == ReadContent(req.content).0
    ensures r.0 == SetBaseUrl(req, baseUrl).(content := ReadContent(req.content).1)
    ensures SameMarkSupport(r.0.content, req.content)
  {
    var injected := SetBaseUrl(req, baseUrl);
    var (body, content) := ReadContent(injected.content);
    var sent := injected.(content := content);
    (sent, ToWire(sent, body))
  }

  /** The retry guard sees only whether content is present and whether it supports mark. */
  lemma SameRetryDecision(resp: Response, a: Option<Stream>, b: Option<Stream>, claims: Option<string>)
    requires SameMarkSupport(a, b)
    ensures GetClaimsFromResponse(resp, a, claims) == GetClaimsFromResponse(resp, b, claims)
  {
    assert RetryEligible(resp.status, a, claims) == RetryEligible(resp.status, b, claims);
  }

  /** Termination measure: a call that already carries claims never retries. */
  function ClaimsRank(claims: Option<string>): nat {
    if NonEmpty(claims) then 0 else 1
  }

  /**
   `getHttpResponseMessage(requestInfo, claims)` as the `n`-th exchange of a
   send: inject the base URL, read the content, send once, then let the retry
   logic decide. At most two exchanges happen; a call with claims makes
   exactly one; a second exchange is computed with the claims extracted from
   the first reply, and its reply is the result, unchanged.
   */
  function GetHttpResponseMessage(baseUrl: string, req: RequestInfo, claims: Option<string>, n: nat, transport: Transport)
    : (r: Exchanged)
    decreases ClaimsRank(claims), 1
    ensures 1 <= |r.attempts| <= 2
    ensures NonEmpty(claims) ==> |r.attempts| == 1 && r.outcome == ReplyOutcome(r.attempts[0].reply)
    ensures r.attempts[0].request == FirstRequest(baseUrl, req)
    ensures r.attempts[0].reply == transport(n, r.attempts[0].request)
    ensures r.attempts[0].context == AdditionalContext(claims)
    ensures r.request.options == req.options
    ensures |r.attempts| == 2 ==>
      && r.attempts[0].reply.Received?
      && GetClaimsFromResponse(r.attempts[0].reply.response, req.content, claims).Some?
      && r.attempts[1].context
           == map[ClaimsKey := GetClaimsFromResponse(r.attempts[0].reply.response, req.content, claims).value]
      && r.attempts[1].reply == transport(n + 1, r.attempts[1].request)
      && r.outcome == ReplyOutcome(r.attempts[1].reply)
    ensures |r.attempts| == 1 ==> r.outcome == ReplyOutcome(r.attempts[0].reply) || r.outcome == Failure(ResetFailed)
    ensures r.attempts[0].reply.Received? && GetClaimsFromResponse(r.attempts[0].reply.response, req.content, claims).Some? ==>
      && (|r.attempts| == 2 <==> RewindContent(Prepare(baseUrl, req).0.content).Success?)
      && (RewindContent(Prepare(baseUrl, req).0.content).Failure? ==> r.outcome == Failure(ResetFailed))
  {
    var (sent, wire) := Prepare(baseUrl, req);
    var first := Attempt(wire, AdditionalContext(claims), transport(n, wire));
    match first.reply
    case TransportFailed(reason) => Exchanged(Failure(TransportError(reason)), sent, [first])
    case Received(resp) =>
      SameRetryDecision(resp, sent.content, req.content, claims);
      var rest := RetryCaeResponseIfRequired(baseUrl, resp, sent, claims, n, transport);
      var log := [first] + rest.attempts;
      assert log[0] == first;
      assert |rest.attempts| == 1 ==> log[1] == rest.attempts[0];
      rest.(attempts := log)
  }

  /**
   `retryCAEResponseIfRequired` after the `n`-th exchange: when the response
   carries a claims challenge the request is rewound and re-issued once with
   those claims; otherwise the response is returned as it is.
   */
  function RetryCaeResponseIfRequired(
    baseUrl: string, resp: Response, req: RequestInfo, claims: Option<string>, n: nat, transport: Transport)
    : (r: Exchanged)
    decreases ClaimsRank(claims), 0
    ensures |r.attempts| <= 1
    ensures GetClaimsFromResponse(resp, req.content, claims).None? ==> r == Exchanged(Success(resp), req, [])
    ensures |r.attempts| == 0 ==> r.outcome == Success(resp) || r.outcome == Failure(ResetFailed)
    ensures r.request.options == req.options
    ensures |r.attempts| == 1 ==>
      && GetClaimsFromResponse(resp, req.content, claims).Some?
      && r.attempts[0].context == map[ClaimsKey := GetClaimsFromResponse(resp, req.content, claims).value]
      && r.attempts[0].reply == transport(n + 1, r.attempts[0].request)
      && r.outcome == ReplyOutcome(r.attempts[0].reply)
    ensures GetClaimsFromResponse(resp, req.content, claims).Some? ==>
      && (|r.attempts| == 1 <==> RewindContent(req.content).Success?)
      && (RewindContent(req.content).Failure? ==> r.outcome == Failure(ResetFailed))
  {
    match GetClaimsFromResponse(resp, req.content, claims)
    case None => Exchanged(Success(resp), req, [])
    case Some(responseClaims) =>
      match RewindContent(req.content)
      case Failure(fatal) =>
        assert fatal == ResetFailed;
        Exchanged(Failure(fatal), req, [])
      case Success(rewound) =>
        assert NonEmpty(Some(responseClaims));
        var again := GetHttpResponseMessage(baseUrl, req.(content := rewound), Some(responseClaims), n + 1, transport);
        assert |again.attempts| == 1 && again.outcome == ReplyOutcome(again.attempts[0].reply);
        assert AdditionalContext(Some(responseClaims)) == map[ClaimsKey := responseClaims];
        again
  }

  /**
   The exchange of one logical send as the loop the recursion above unrolls
   into: it ends with the same result, and the counter of exchanges, which
   also numbers them for the transport, never exceeds two.
   */
  method ExchangeWithRetry(baseUrl: string, req: RequestInfo, transport: Transport)
    returns (outcome: Result<Response, Fatal>, exchanges: nat)
    ensures outcome == GetHttpResponseMessage(baseUrl, req, None, 0, transport).outcome
    ensures exchanges == |GetHttpResponseMessage(baseUrl, req, None, 0, transport).attempts| <= 2
  {
    ghost var spec := GetHttpResponseMessage(baseUrl, req, None, 0, transport);
    var current := req;
    var claims: Option<string> := None;
    exchanges := 0;
    while true
      invariant exchanges + |GetHttpResponseMessage(baseUrl, current, claims, exchanges, transport).attempts| == |spec.attempts|
      invariant GetHttpResponseMessage(baseUrl, current, claims, exchanges, transport).outcome == spec.outcome
      invariant exchanges == 0 || NonEmpty(claims)
      decreases ClaimsRank(claims)
    {
      var (sent, wire) := Prepare(baseUrl, current);
      var reply := transport(exchanges, wire);
      exchanges := exchanges + 1;
      if reply.TransportFailed? {
        outcome := Failure(TransportError(reply.reason));
        return;
      }
      var found := GetClaimsFromResponse(reply.response, sent.content, claims);
      if found.None? {
        outcome := Success(reply.response);
        return;
      }
      var rewound := RewindContent(sent.content);
      if rewound.Failure? {
        outcome := Failure(rewound.error);
        return;
      }
      current := sent.(content := rewound.value);
      claims := found;
    }
  }

  // ---------------------------------------------------------------------------
  // Properties of the retry protocol
  // ---------------------------------------------------------------------------

  /** The wire request the first exchange of a call sends. */
  function FirstRequest(baseUrl: string, req: RequestInfo): WireRequest {
    Prepare(baseUrl, req).1
  }

  /** Without a claims challenge in the first reply there is one exchange and its response is the result. */
  lemma NoChallengeNoRetry(baseUrl: string, req: RequestInfo, claims: Option<string>, n: nat, transport: Transport)
    requires transport(n, FirstRequest(baseUrl, req)).Received?
    requires GetClaimsFromResponse(transport(n, FirstRequest(baseUrl, req)).response, req.content, claims).None?
    ensures |GetHttpResponseMessage(baseUrl, req, claims, n, transport).attempts| == 1
    ensures GetHttpResponseMessage(baseUrl, req, claims, n, transport).outcome
            == Success(transport(n, FirstRequest(baseUrl, req)).response)
  {
    var (sent, wire) := Prepare(baseUrl, req);
    SameRetryDecision(transport(n, wire).response, sent.content, req.content, claims);
  }

  /** A body that does not support mark/reset disables the retry: one exchange, its reply returned as is. */
  lemma NonRewindableBodyNoRetry(baseUrl: string, req: RequestInfo, claims: Option<string>, n: nat, transport: Transport)
    requires req.content.Some? && !req.content.value.markSupported
    ensures |GetHttpResponseMessage(baseUrl, req, claims, n, transport).attempts| == 1
    ensures GetHttpResponseMessage(baseUrl, req, claims, n, transport).outcome
            == ReplyOutcome(transport(n, FirstRequest(baseUrl, req)))
  {
    var reply := transport(n, FirstRequest(baseUrl, req));
    if reply.Received? {
      assert !RetryEligible(reply.response.status, req.content, claims);
      NoChallengeNoRetry(baseUrl, req, claims, n, transport);
    }
  }

  /** Whether reading `content` to the end and resetting it gives back exactly the stream it was. */
  predicate RewindsToStart(content: Option<Stream>) {
    content.None? || Reset(ReadAllBytes(content.value).1) == Some(content.value)
  }

  /** A fresh `ByteArrayInputStream` body always rewinds to its start. */
  lemma ByteArrayContentRewinds(data: seq<byte>)
    ensures RewindsToStart(Some(ByteArrayStream(data)))
  {
    ByteArrayStreamRewinds(data);
  }

  /**
   When the first reply carries a claims challenge and the content rewinds to
   where it started (absent, or a fresh `ByteArrayInputStream`), there are two
   exchanges, and the retry puts the very same request on the wire: same
   method, URL, path parameters, headers and body. The extracted claims are
   computed into the second exchange's context only.
   */
  lemma RetryResendsSameRequest(baseUrl: string, req: RequestInfo, transport: Transport)
    requires RewindsToStart(req.content)
    requires transport(0, FirstRequest(baseUrl, req)).Received?
    requires GetClaimsFromResponse(transport(0, FirstRequest(baseUrl, req)).response, req.content, None).Some?
    ensures var log := GetHttpResponseMessage(baseUrl, req, None, 0, transport).attempts;
            var v := GetClaimsFromResponse(transport(0, FirstRequest(baseUrl, req)).response, req.content, None).value;
            && |log| == 2
            && log[1].request == log[0].request
            && log[1].context == map[ClaimsKey := v]
  {
    var (sent, wire) := Prepare(baseUrl, req);
    RewoundRequestRereads(baseUrl, req);
    RetryFollowsChallenge(baseUrl, req, transport);
  }

  /**
   The retry re-reads the content from its mark, not from where the first read
   began: content read from position 1 but marked at 0 sends `[2]` first and
   `[1, 2]` on the retry.
   */
  lemma RetryRereadsFromMark(baseUrl: string, req: RequestInfo, v: string, body: Option<seq<byte>>, transport: Transport)
    requires PlainClaimsValue(v) && forall i :: 0 <= i < |v| ==> !IsLineTerminator(v[i])
    requires req.content == Some(Stream([1, 2], 1, Some(0), None, true))
    requires transport(0, FirstRequest(baseUrl, req))
             == Received(Response(401, [Header(AuthenticateHeader, SingleClaimsChallenge("Bearer", v))], body))
    ensures var log := GetHttpResponseMessage(baseUrl, req, None, 0, transport).attempts;
            && |log| == 2
            && log[0].request.body == Some([2])
            && log[1].request.body == Some([1, 2])
  {
    var (sent, wire) := Prepare(baseUrl, req);
    assert ReadAllBytes(req.content.value).0 == [2];
    ChallengeTriggersOneRetry(baseUrl, req, v, body, transport);
    var again := sent.(content := RewindContent(sent.content).value);
    assert again.content == Some(Stream([1, 2], 0, Some(0), None, true));
    assert ReadAllBytes(again.content.value).0 == [1, 2];
    RetryFollowsChallenge(baseUrl, req, transport);
  }

  /**
   Since the claims never reach the wire, a server whose answer depends on the
   request alone answers the retry exactly as it answered the first exchange:
   the send ends with the challenge response it started from.
   */
  lemma RetryRepeatsReplyOfStatelessServer(baseUrl: string, req: RequestInfo, transport: Transport)
    requires RewindsToStart(req.content)
    requires transport(0, FirstRequest(baseUrl, req)).Received?
    requires GetClaimsFromResponse(transport(0, FirstRequest(baseUrl, req)).response, req.content, None).Some?
    requires transport(1, FirstRequest(baseUrl, req)) == transport(0, FirstRequest(baseUrl, req))
    ensures var ex := GetHttpResponseMessage(baseUrl, req, None, 0, transport);
            && |ex.attempts| == 2
            && ex.attempts[1].reply == ex.attempts[0].reply
            && ex.outcome == Success(transport(0, FirstRequest(baseUrl, req)).response)
  {
    RetryResendsSameRequest(baseUrl, req, transport);
  }

  /**
   When the first reply carries a claims challenge and the content can be
   rewound, the log is the first exchange followed by the log of the call that
   re-issues the rewound request with the extracted claims as exchange 1.
   */
  lemma RetryFollowsChallenge(baseUrl: string, req: RequestInfo, transport: Transport)
    requires transport(0, FirstRequest(baseUrl, req)).Received?
    requires GetClaimsFromResponse(transport(0, FirstRequest(baseUrl, req)).response, req.content, None).Some?
    requires RewindContent(Prepare(baseUrl, req).0.content).Success?
    ensures var (sent, wire) := Prepare(baseUrl, req);
            var v := GetClaimsFromResponse(transport(0, wire).response, req.content, None).value;
            var again := sent.(content := RewindContent(sent.content).value);
            GetHttpResponseMessage(baseUrl, req, None, 0, transport).attempts
            == [Attempt(wire, map[], transport(0, wire))] + GetHttpResponseMessage(baseUrl, again, Some(v), 1, transport).attempts
  {
    var (sent, wire) := Prepare(baseUrl, req);
    SameRetryDecision(transport(0, wire).response, sent.content, req.content, None);
  }

  /**
   Content that rewinds to its start is back where it was after the first
   read, and the descriptor it leaves behind puts the first wire request on
   the wire again.
   */
  lemma RewoundRequestRereads(baseUrl: string, req: RequestInfo)
    requires RewindsToStart(req.content)
    ensures var (sent, wire) := Prepare(baseUrl, req);
            && RewindContent(sent.content) == Success(req.content)
            && Prepare(baseUrl, sent.(content := req.content)).1 == wire
  {
    var (sent, wire) := Prepare(baseUrl, req);
    if req.content.Some? {
      assert RewindContent(sent.content) == Success(req.content);
    }
    SetBaseUrlIdempotent(req, baseUrl);
    assert sent.(content := req.content) == SetBaseUrl(req, baseUrl);
  }

  /**
   A 401 carrying `WWW-Authenticate: Bearer claims="v"` on a request whose
   body can still be reset once read triggers exactly one retry, computed
   with "v" as its claims.
   */
  lemma ChallengeTriggersOneRetry(
    baseUrl: string, req: RequestInfo, v: string, body: Option<seq<byte>>, transport: Transport)
    requires PlainClaimsValue(v) && forall i :: 0 <= i < |v| ==> !IsLineTerminator(v[i])
    requires req.content.None? || (req.content.value.markSupported && ReadAllBytes(req.content.value).1.mark.Some?)
    requires transport(0, FirstRequest(baseUrl, req))
             == Received(Response(401, [Header(AuthenticateHeader, SingleClaimsChallenge("Bearer", v))], body))
    ensures |GetHttpResponseMessage(baseUrl, req, None, 0, transport).attempts| == 2
    ensures GetHttpResponseMessage(baseUrl, req, None, 0, transport).attempts[1].context == map[ClaimsKey := v]
  {
    var (sent, wire) := Prepare(baseUrl, req);
    ChallengeYieldsClaims(v, body, sent.content, None);
    assert RewindContent(sent.content).Success?;
  }

  /**
   A challenge on a mark-supporting body left with no valid mark by the read
   (never marked, or read past the mark's limit) ends in the fatal reset
   error after one exchange.
   */
  lemma InvalidMarkIsFatal(
    baseUrl: string, req: RequestInfo, v: string, body: Option<seq<byte>>, transport: Transport)
    requires PlainClaimsValue(v) && forall i :: 0 <= i < |v| ==> !IsLineTerminator(v[i])
    requires req.content.Some? && req.content.value.markSupported && ReadAllBytes(req.content.value).1.mark.None?
    requires transport(0, FirstRequest(baseUrl, req))
             == Received(Response(401, [Header(AuthenticateHeader, SingleClaimsChallenge("Bearer", v))], body))
    ensures |GetHttpResponseMessage(baseUrl, req, None, 0, transport).attempts| == 1
    ensures GetHttpResponseMessage(baseUrl, req, None, 0, transport).outcome == Failure(ResetFailed)
  {
    var (sent, wire) := Prepare(baseUrl, req);
    ChallengeYieldsClaims(v, body, sent.content, None);
  }
}

=== FILE: http.dfy ===
/**
 The values the adapter exchanges with its collaborators: header multimaps,
 responses, the request descriptor (`RequestInformation`) with its content
 stream and request options, and the wire request handed to the transport.
 Also the two small operations on the descriptor the adapter performs itself:
 base-URL injection and response-handler lookup.
 */
module Http {
  import opened Outcomes
  import opened Strings

  type byte = b: int | 0 <= b < 256

  // ---------------------------------------------------------------------------
  // Headers
  // ---------------------------------------------------------------------------

  /** One header line; a header multimap is the sequence of its lines in order. */
  datatype Header = Header(name: string, value: string)

  type Headers = seq<Header>

  /** `headers.getAll(name)`: every value under `name`, in order, names compared up to ASCII case. */
  function GetAll(hs: Headers, name: string): (vs: seq<string>)
    ensures |vs| <= |hs|
    ensures forall i :: 0 <= i < |vs| ==> exists j :: 0 <= j < |hs| && hs[j].value == vs[i] && EqualsIgnoreCase(hs[j].name, name)
    ensures forall j :: 0 <= j < |hs| && EqualsIgnoreCase(hs[j].name, name) ==> hs[j].value in vs
  {
    if |hs| == 0 then []
    else
      var rest := GetAll(hs[1..], name);
      if EqualsIgnoreCase(hs[0].name, name) then [hs[0].value] + rest else rest
  }

  /** `headers.get(name)`: the first value under `name`, or null. */
  function Get(hs: Headers, name: string): (v: Option<string>)
    ensures v.None? <==> GetAll(hs, name) == []
    ensures v.Some? ==> v.value == GetAll(hs, name)[0]
  {
    if |hs| == 0 then None
    else if EqualsIgnoreCase(hs[0].name, name) then Some(hs[0].value)
    else Get(hs[1..], name)
  }

  // ---------------------------------------------------------------------------
  // Responses and transport
  // ---------------------------------------------------------------------------

  /** A buffered response: status code, headers and `bodyAsBuffer()`, null when there is no body. */
  datatype Response = Response(status: int, headers: Headers, body: Option<seq<byte>>)

  /** Failures the adapter wraps in a `RuntimeException` and never recovers from. */
  datatype Fatal =
    | TransportError(reason: string)          // URISyntax, IO, Execution or Interrupted exception
    | ResetFailed                             // IOException from `content.reset()` before a retry
    | NullBody                                // `bodyAsBuffer()` was null where the raw bytes were asked for
    | UnexpectedPayloadType(message: string)  // sendPrimitive with a target class it does not know

  /** What the transport gave back for one wire request. */
  datatype Reply = Received(response: Response) | TransportFailed(reason: string)

  // ---------------------------------------------------------------------------
  // Request content stream
  // ---------------------------------------------------------------------------

  /**
   An in-memory `InputStream`: its bytes, the read position, the position
   `reset()` returns to (None when no mark is valid), the read limit given to
   the last `mark` (None when the mark never expires, as in
   `ByteArrayInputStream`) and `markSupported()`.
   */
  datatype Stream = Stream(data: seq<byte>, pos: nat, mark: Option<nat>, markLimit: Option<nat>, markSupported: bool)

  /** A fresh `ByteArrayInputStream`: mark supported, set at the start, and never expiring. */
  function ByteArrayStream(data: seq<byte>): Stream {
    Stream(data, 0, Some(0), None, true)
  }

  /**
   Whether a mark at `mark` with read limit `limit` is still valid at `pos`:
   reading more than the limit past the mark invalidates it.
   */
  predicate MarkHolds(mark: nat, limit: Option<nat>, pos: nat) {
    limit.None? || pos - mark <= limit.value
  }

  /**
   `readAllBytes()`: the bytes from the read position on, leaving the stream at
   its end; a mark survives unless the read went past its limit.
   */
  function ReadAllBytes(s: Stream): (r: (seq<byte>, Stream))
    ensures s.pos <= |s.data| ==> s.data == s.data[..s.pos] + r.0
    ensures s.pos >= |s.data| ==> r.0 == [] && r.1 == s
    ensures r.1.data == s.data && r.1.markLimit == s.markLimit && r.1.markSupported == s.markSupported
    ensures r.1.pos >= |r.1.data|
    ensures s.pos < |s.data| ==> (r.1.mark.Some? <==> s.mark.Some? && MarkHolds(s.mark.value, s.markLimit, |s.data|))
    ensures r.1.mark.Some? ==> r.1.mark == s.mark
  {
    if s.pos < |s.data| then
      var end := |s.data|;
      var mark := if s.mark.Some? && !MarkHolds(s.mark.value, s.markLimit, end) then None else s.mark;
      (s.data[s.pos..], s.(pos := end, mark := mark))
    else ([], s)
  }

  /** `reset()`: back to the mark, or the IOException (None) when unsupported or no mark is valid. */
  function Reset(s: Stream): Option<Stream> {
    if s.markSupported && s.mark.Some? then Some(s.(pos := s.mark.value)) else None
  }

  /**
   A stream marked at its read position, whose mark outlasts reading it to
   the end, is returned by read-then-reset to exactly where it was, so a
   second read yields the same bytes.
   */
  lemma ResetRestoresMarkedStream(s: Stream)
    requires s.markSupported && s.mark == Some(s.pos)
    requires MarkHolds(s.pos, s.markLimit, |s.data|)
    ensures Reset(ReadAllBytes(s).1) == Some(s)
    ensures ReadAllBytes(Reset(ReadAllBytes(s).1).value).0 == ReadAllBytes(s).0
  {
  }

  /** Every `ByteArrayInputStream` rewinds to its start after being read. */
  lemma ByteArrayStreamRewinds(data: seq<byte>)
    ensures Reset(ReadAllBytes(ByteArrayStream(data)).1) == Some(ByteArrayStream(data))
  {
    ResetRestoresMarkedStream(ByteArrayStream(data));
  }

  /** A read past the limit of the mark leaves nothing to reset to. */
  lemma ExpiredMarkCannotReset(s: Stream)
    requires s.pos < |s.data| && s.mark.Some? && !MarkHolds(s.mark.value, s.markLimit, |s.data|)
    ensures Reset(ReadAllBytes(s).1).None?
  {
  }

  // ---------------------------------------------------------------------------
  // Request descriptor
  // ---------------------------------------------------------------------------

  /** A custom response handler; what it does is up to the caller. */
  datatype Handler = Handler(id: nat)

  /** A request option; only `ResponseHandlerOption` means anything to the adapter. */
  datatype RequestOption =
    | ResponseHandlerOption(handler: Option<Handler>)
    | OtherOption(kind: string)

  /**
   `RequestInformation`: method, URL template, path parameters, headers,
   nullable content and the request options in the order `getRequestOptions()`
   yields them.
   */
  datatype RequestInfo = RequestInfo(
    httpMethod: string,
    urlTemplate: string,
    pathParameters: map<string, string>,
    headers: Headers,
    content: Option<Stream>,
    options: seq<RequestOption>)

  /** What the Vert.x request is built from: method, URL (template and parameters), headers and the body bytes if any. */
  datatype WireRequest = WireRequest(
    httpMethod: string,
    urlTemplate: string,
    pathParameters: map<string, string>,
    headers: Headers,
    body: Option<seq<byte>>)

  const BaseUrlKey := "baseurl"

  /** `setBaseUrlForRequestInformation`: puts the base URL under "baseurl" and touches nothing else. */
  function SetBaseUrl(req: RequestInfo, baseUrl: string): (r: RequestInfo)
    ensures BaseUrlKey in r.pathParameters && r.pathParameters[BaseUrlKey] == baseUrl
    ensures forall k :: k != BaseUrlKey ==> (k in r.pathParameters <==> k in req.pathParameters)
    ensures forall k :: k != BaseUrlKey && k in req.pathParameters ==> r.pathParameters[k] == req.pathParameters[k]
    ensures r.(pathParameters := req.pathParameters) == req
  {
    req.(pathParameters := req.pathParameters[BaseUrlKey := baseUrl])
  }

  /** Injecting the same base URL twice is the same as injecting it once. */
  lemma SetBaseUrlIdempotent(req: RequestInfo, baseUrl: string)
    ensures SetBaseUrl(SetBaseUrl(req, baseUrl), baseUrl) == SetBaseUrl(req, baseUrl)
  {
    var once := SetBaseUrl(req, baseUrl);
    assert once.pathParameters[BaseUrlKey := baseUrl] == once.pathParameters;
  }

  /**
   `getResponseHandler`: the handler of the first `ResponseHandlerOption`
   (which may itself be null), or null when there is none.
   */
  function GetResponseHandler(opts: seq<RequestOption>): (h: Option<Handler>)
    ensures (forall i :: 0 <= i < |opts| ==> !opts[i].ResponseHandlerOption?) ==> h.None?
    ensures forall i ::
              (0 <= i < |opts| && opts[i].ResponseHandlerOption? && forall j :: 0 <= j < i ==> !opts[j].ResponseHandlerOption?)
              ==> h == opts[i].handler
  {
    if |opts| == 0 then None
    else if opts[0].ResponseHandlerOption? then opts[0].handler
    else GetResponseHandler(opts[1..])
  }
}

=== FILE: outcomes.dfy ===
/**
 Failure-compatible wrappers shared by every module of the model.
 `Option` stands for a Java reference that may be null; `Result` for a value
 or the exception that replaced it.
 */
module Outcomes {

  /** A Java reference that may be null: `None` is null. */
  datatype Option<+T> = None | Some(value: T)

  /** A computed value or the failure that was thrown instead. */
  datatype Result<+T, +E> = Success(value: T) | Failure(error: E)

  /** Java's `s != null && !s.isEmpty()` for a nullable string. */
  predicate NonEmpty(s: Option<string>) {
    s.Some? && |s.value| > 0
  }
}

=== FILE: send.dfy ===
/**
 The skeleton shared by `send`, `sendCollection`, `sendEnum`,
 `sendEnumCollection` and `sendPrimitiveCollection`, and the kind dispatch
 of `sendPrimitive`.

 Every variant first performs the exchange (with its claims retry), and only
 then looks for a response handler: with one, the handler's result is
 returned as it is; without one, the status is checked, a 204 or a missing
 root node gives null, and otherwise the value is extracted from the root
 node. The extraction itself (`getObjectValue`, `getCollectionOfEnumValues`,
 ...) and the handler are foreign and appear as function parameters.
 */
module Send {
  import opened Outcomes
  import opened Http
  import opened ErrorMapping
  import opened Exchange

  /** Which extraction a send variant applies to the root node. */
  datatype Shape =
    | ObjectShape               // send: getObjectValue(factory)
    | CollectionShape           // sendCollection: getCollectionOfObjectValues(factory)
    | EnumShape                 // sendEnum: getEnumValue(enumParser)
    | EnumCollectionShape       // sendEnumCollection: getCollectionOfEnumValues(enumParser)
    | PrimitiveCollectionShape  // sendPrimitiveCollection: getCollectionOfPrimitiveValues(targetClass)

  /** How a send ends: a value or null, an `ApiException`, or a fatal `RuntimeException`. */
  datatype Outcome<T> = Returned(value: Option<T>) | Raised(error: ApiError) | Aborted(fatal: Fatal)

  /** The outcome and the exchanges performed to reach it. */
  datatype Sent<T> = Sent(outcome: Outcome<T>, attempts: seq<Attempt>)

  /** Interpretation of a response when no handler is present, for the five parse-node variants. */
  function InterpretResponse<T>(
    resp: Response, mappings: ErrorMappings, shape: Shape, extract: (Shape, ParseNode) -> Option<T>)
    : (o: Outcome<T>)
    ensures !o.Aborted?
    ensures o.Raised? <==> !IsSuccessStatus(resp.status)
    ensures o.Raised? ==> Failure(o.error) == ThrowIfFailedResponse(resp, mappings)
    ensures IsSuccessStatus(resp.status) && (ShouldReturnNull(resp) || GetRootParseNode(resp).None?) ==> o == Returned(None)
    ensures IsSuccessStatus(resp.status) && !ShouldReturnNull(resp) && GetRootParseNode(resp).Some? ==>
      o == Returned(extract(shape, GetRootParseNode(resp).value))
  {
    match ThrowIfFailedResponse(resp, mappings)
    case Failure(error) => Raised(error)
    case Success(_) =>
      if ShouldReturnNull(resp) then Returned(None)
      else match GetRootParseNode(resp)
        case None => Returned(None)
        case Some(node) => Returned(extract(shape, node))
  }

  /**
   One of the five parse-node send variants: the exchange, then either the
   handler's verbatim result or the interpretation above.
   */
  function SendParsed<T>(
    baseUrl: string, req: RequestInfo, mappings: ErrorMappings, shape: Shape,
    transport: Transport,
    extract: (Shape, ParseNode) -> Option<T>,
    handle: (Handler, Response, ErrorMappings) -> Option<T>)
    : (r: Sent<T>)
    ensures r.attempts == GetHttpResponseMessage(baseUrl, req, None, 0, transport).attempts
    ensures 1 <= |r.attempts| <= 2
    ensures GetHttpResponseMessage(baseUrl, req, None, 0, transport).outcome.Failure? ==>
      r.outcome == Aborted(GetHttpResponseMessage(baseUrl, req, None, 0, transport).outcome.error)
    ensures GetHttpResponseMessage(baseUrl, req, None, 0, transport).outcome.Success? && GetResponseHandler(req.options).Some? ==>
      r.outcome == Returned(handle(GetResponseHandler(req.options).value,
                                   GetHttpResponseMessage(baseUrl, req, None, 0, transport).outcome.value, mappings))
    ensures GetHttpResponseMessage(baseUrl, req, None, 0, transport).outcome.Success? && GetResponseHandler(req.options).None? ==>
      r.outcome == InterpretResponse(GetHttpResponseMessage(baseUrl, req, None, 0, transport).outcome.value, mappings, shape, extract)
  {
    var ex := GetHttpResponseMessage(baseUrl, req, None, 0, transport);
    match ex.outcome
    case Failure(fatal) => Sent(Aborted(fatal), ex.attempts)
    case Success(resp) =>
      match GetResponseHandler(ex.request.options)
      case Some(handler) => Sent(Returned(handle(handler, resp, mappings)), ex.attempts)
      case None => Sent(InterpretResponse(resp, mappings, shape, extract), ex.attempts)
  }

  // ---------------------------------------------------------------------------
  // sendPrimitive
  // ---------------------------------------------------------------------------

  /** The target class of `sendPrimitive`, as a tag; `OtherKind` is any class it does not know. */
  datatype PrimitiveKind =
    | VoidKind | InputStreamKind
    | BooleanKind | ByteKind | StringKind | ShortKind | BigDecimalKind | DoubleKind | IntegerKind
    | FloatKind | LongKind | UuidKind | OffsetDateTimeKind | LocalDateKind | LocalTimeKind
    | PeriodAndDurationKind | ByteArrayKind
    | OtherKind(className: string)

  /** The kinds read from the root node through a typed getter. */
  predicate IsParsedKind(kind: PrimitiveKind) {
    !(kind.VoidKind? || kind.InputStreamKind? || kind.OtherKind?)
  }

  /** A `sendPrimitive` result: the raw body as a stream, or a value from a typed getter. */
  datatype Primitive<T> = RawBody(bytes: seq<byte>) | Parsed(value: T)

  function UnexpectedPayloadMessage(className: string): string {
    "unexpected payload type " + className
  }

  /**
   `sendPrimitive` without a handler: after the status check and the 204 test,
   Void gives null and InputStream the raw body bytes (null body: NullPointerException);
   the other kinds need a root node (none: null), and an unknown kind is fatal.
   */
  function InterpretPrimitive<T>(
    resp: Response, mappings: ErrorMappings, kind: PrimitiveKind, extract: (PrimitiveKind, ParseNode) -> Option<T>)
    : (o: Outcome<Primitive<T>>)
    ensures o.Raised? <==> !IsSuccessStatus(resp.status)
    ensures o.Raised? ==> Failure(o.error) == ThrowIfFailedResponse(resp, mappings)
    ensures o.Aborted? ==>
      || (kind.InputStreamKind? && resp.body.None?)
      || (kind.OtherKind? && o.fatal == UnexpectedPayloadType(UnexpectedPayloadMessage(kind.className)))
    ensures o.Returned? && o.value.Some? && o.value.value.RawBody? ==> kind.InputStreamKind? && resp.body == Some(o.value.value.bytes)
    ensures o.Returned? && o.value.Some? && o.value.value.Parsed? ==>
      IsParsedKind(kind) && GetRootParseNode(resp).Some?
      && extract(kind, GetRootParseNode(resp).value) == Some(o.value.value.value)
  {
    match ThrowIfFailedResponse(resp, mappings)
    case Failure(error) => Raised(error)
    case Success(_) =>
      if ShouldReturnNull(resp) then Returned(None)
      else if kind.VoidKind? then Returned(None)
      else if kind.InputStreamKind? then
        match resp.body
        case None => Aborted(NullBody)
        case Some(bytes) => Returned(Some(RawBody(bytes)))
      else match GetRootParseNode(resp)
        case None => Returned(None)
        case Some(node) =>
          if kind.OtherKind? then Aborted(UnexpectedPayloadType(UnexpectedPayloadMessage(kind.className)))
          else match extract(kind, node)
            case None => Returned(None)
            case Some(value) => Returned(Some(Parsed(value)))
  }

  /** `sendPrimitive`: the exchange, then the handler's verbatim result or the kind dispatch above. */
  function SendPrimitive<T>(
    baseUrl: string, req: RequestInfo, mappings: ErrorMappings, kind: PrimitiveKind,
    transport: Transport,
    extract: (PrimitiveKind, ParseNode) -> Option<T>,
    handle: (Handler, Response, ErrorMappings) -> Option<Primitive<T>>)
    : (r: Sent<Primitive<T>>)
    ensures r.attempts == GetHttpResponseMessage(baseUrl, req, None, 0, transport).attempts
    ensures GetHttpResponseMessage(baseUrl, req, None, 0, transport).outcome.Failure? ==>
      r.outcome == Aborted(GetHttpResponseMessage(baseUrl, req, None, 0, transport).outcome.error)
    ensures GetHttpResponseMessage(baseUrl, req, None, 0, transport).outcome.Success? && GetResponseHandler(req.options).Some? ==>
      r.outcome == Returned(handle(GetResponseHandler(req.options).value,
                                   GetHttpResponseMessage(baseUrl, req, None, 0, transport).outcome.value, mappings))
    ensures GetHttpResponseMessage(baseUrl, req, None, 0, transport).outcome.Success? && GetResponseHandler(req.options).None? ==>
      r.outcome == InterpretPrimitive(GetHttpResponseMessage(baseUrl, req, None, 0, transport).outcome.value, mappings, kind, extract)
  {
    var ex := GetHttpResponseMessage(baseUrl, req, None, 0, transport);
    match ex.outcome
    case Failure(fatal) => Sent(Aborted(fatal), ex.attempts)
    case Success(resp) =>
      match GetResponseHandler(ex.request.options)
      case Some(handler) => Sent(Returned(handle(handler, resp, mappings)), ex.attempts)
      case None => Sent(InterpretPrimitive(resp, mappings, kind, extract), ex.attempts)
  }

  // ---------------------------------------------------------------------------
  // Properties of the send variants
  // ---------------------------------------------------------------------------

  /**
   A 204 makes every variant without a handler return null, whatever the
   extraction would have produced: no parse node is used.
   */
  lemma NoContentReturnsNull<T, U>(
    resp: Response, mappings: ErrorMappings, shape: Shape, kind: PrimitiveKind,
    extract: (Shape, ParseNode) -> Option<T>, extractPrimitive: (PrimitiveKind, ParseNode) -> Option<U>)
    requires resp.status == 204
    ensures InterpretResponse(resp, mappings, shape, extract) == Returned(None)
    ensures InterpretPrimitive(resp, mappings, kind, extractPrimitive) == Returned(None)
  {
  }

  /**
   Without a handler a failing status never returns normally: every variant
   raises the error `throwIfFailedResponse` builds, carrying the status code
   and headers of the response, whatever the kind of `sendPrimitive`.
   */
  lemma FailingStatusRaises<T, U>(
    resp: Response, mappings: ErrorMappings, shape: Shape, kind: PrimitiveKind,
    extract: (Shape, ParseNode) -> Option<T>, extractPrimitive: (PrimitiveKind, ParseNode) -> Option<U>)
    requires !IsSuccessStatus(resp.status)
    ensures InterpretResponse(resp, mappings, shape, extract).Raised?
    ensures InterpretResponse(resp, mappings, shape, extract).error.status == resp.status
    ensures InterpretResponse(resp, mappings, shape, extract).error.headers == resp.headers
    ensures InterpretPrimitive(resp, mappings, kind, extractPrimitive)
            == Raised(InterpretResponse(resp, mappings, shape, extract).error)
  {
  }

  /**
   A 2xx other than 204 with a body and a Content-Type returns exactly what
   the shape's extraction reads from that body.
   */
  lemma SuccessReturnsExtractedValue<T>(
    resp: Response, mappings: ErrorMappings, shape: Shape, extract: (Shape, ParseNode) -> Option<T>,
    contentType: string, body: seq<byte>)
    requires IsSuccessStatus(resp.status) && resp.status != 204
    requires resp.body == Some(body) && Get(resp.headers, ContentTypeHeader) == Some(contentType)
    ensures InterpretResponse(resp, mappings, shape, extract) == Returned(extract(shape, ParseNode(contentType, body)))
  {
  }

  /**
   With a response handler the adapter applies no status check and no
   parsing: once the exchange ends with a response, the handler's result for
   it is returned as it is, whatever the status, and the extraction plays no part.
   */
  lemma HandlerResultReturnedVerbatim<T>(
    baseUrl: string, req: RequestInfo, mappings: ErrorMappings, shape: Shape,
    transport: Transport,
    extract1: (Shape, ParseNode) -> Option<T>, extract2: (Shape, ParseNode) -> Option<T>,
    handle: (Handler, Response, ErrorMappings) -> Option<T>)
    requires GetResponseHandler(req.options).Some?
    ensures var ex := GetHttpResponseMessage(baseUrl, req, None, 0, transport);
            ex.outcome.Success? ==>
              SendParsed(baseUrl, req, mappings, shape, transport, extract1, handle).outcome
              == Returned(handle(GetResponseHandler(req.options).value, ex.outcome.value, mappings))
    ensures SendParsed(baseUrl, req, mappings, shape, transport, extract1, handle)
            == SendParsed(baseUrl, req, mappings, shape, transport, extract2, handle)
  {
  }

  /** `Void` returns null for every passing response, whatever its body. */
  lemma VoidReturnsNull<T>(resp: Response, mappings: ErrorMappings, extract: (PrimitiveKind, ParseNode) -> Option<T>)
    requires IsSuccessStatus(resp.status)
    ensures InterpretPrimitive(resp, mappings, VoidKind, extract) == Returned(None)
  {
  }

  /** `InputStream` returns the raw body of a passing non-204 response, with or without a Content-Type. */
  lemma InputStreamReturnsRawBody<T>(
    resp: Response, mappings: ErrorMappings, extract: (PrimitiveKind, ParseNode) -> Option<T>)
    requires IsSuccessStatus(resp.status) && resp.status != 204
    ensures resp.body.Some? ==> InterpretPrimitive(resp, mappings, InputStreamKind, extract) == Returned(Some(RawBody(resp.body.value)))
    ensures resp.body.None? ==> InterpretPrimitive(resp, mappings, InputStreamKind, extract) == Aborted(NullBody)
  {
  }

  /** An unknown target class is fatal only once a root node exists; before that the result is null. */
  lemma UnknownKindFatalOnlyWithNode<T>(
    resp: Response, mappings: ErrorMappings, className: string, extract: (PrimitiveKind, ParseNode) -> Option<T>)
    requires IsSuccessStatus(resp.status) && resp.status != 204
    ensures GetRootParseNode(resp).None? ==> InterpretPrimitive(resp, mappings, OtherKind(className), extract) == Returned(None)
    ensures GetRootParseNode(resp).Some? ==>
      InterpretPrimitive(resp, mappings, OtherKind(className), extract)
      == Aborted(UnexpectedPayloadType(UnexpectedPayloadMessage(className)))
  {
  }

  /**
   A typed target class reads its value from the root node: null when there
   is no node or the getter yields null, and otherwise exactly the getter's value.
   */
  lemma TypedKindReturnsGetterValue<T>(
    resp: Response, mappings: ErrorMappings, kind: PrimitiveKind, extract: (PrimitiveKind, ParseNode) -> Option<T>)
    requires IsSuccessStatus(resp.status) && resp.status != 204 && IsParsedKind(kind)
    ensures GetRootParseNode(resp).None? ==> InterpretPrimitive(resp, mappings, kind, extract) == Returned(None)
    ensures GetRootParseNode(resp).Some? && extract(kind, GetRootParseNode(resp).value).None? ==>
      InterpretPrimitive(resp, mappings, kind, extract) == Returned(None)
    ensures GetRootParseNode(resp).Some? && extract(kind, GetRootParseNode(resp).value).Some? ==>
      InterpretPrimitive(resp, mappings, kind, extract)
      == Returned(Some(Parsed(extract(kind, GetRootParseNode(resp).value).value)))
  {
  }
}

=== FILE: strings.dfy ===
/**
 The few pieces of java.lang.String behaviour the adapter relies on:
 ASCII case folding (used by java.util.regex under CASE_INSENSITIVE without
 UNICODE_CASE, and by Vert.x when it compares header names),
 `Integer.toString` for the status-code key of the error-mapping table, and
 `String.split` on a one-character separator.
 */
module Strings {

  // ---------------------------------------------------------------------------
  // ASCII case folding
  // ---------------------------------------------------------------------------

  /** Lower-cases 'A'..'Z' and leaves every other character alone. */
  function AsciiLower(c: char): char {
    if 'A' <= c <= 'Z' then (c as int + 32) as char else c
  }

  /** Equality up to ASCII case. */
  predicate EqualsIgnoreCase(a: string, b: string) {
    |a| == |b| && forall i :: 0 <= i < |a| ==> AsciiLower(a[i]) == AsciiLower(b[i])
  }

  // ---------------------------------------------------------------------------
  // Integer.toString
  // ---------------------------------------------------------------------------

  predicate IsDigit(c: char) {
    '0' <= c <= '9'
  }

  predicate AllDigits(s: string) {
    forall i :: 0 <= i < |s| ==> IsDigit(s[i])
  }

  function DigitValue(c: char): nat
    requires IsDigit(c)
  {
    c as int - '0' as int
  }

  function DigitChar(d: nat): (c: char)
    requires d < 10
    ensures IsDigit(c) && DigitValue(c) == d
  {
    ('0' as int + d) as char
  }

  /** Decimal digits of `n`, most significant first, without leading zeros. */
  function NatToDecimal(n: nat): (s: string)
    ensures 0 < |s| && AllDigits(s)
    ensures s[0] == '0' ==> n == 0 && |s| == 1
  {
    if n < 10 then [DigitChar(n)] else NatToDecimal(n / 10) + [DigitChar(n % 10)]
  }

  /** The number a string of decimal digits denotes; the inverse of `NatToDecimal`. */
  function DecimalValue(s: string): nat
    requires AllDigits(s)
  {
    if |s| == 0 then 0 else 10 * DecimalValue(s[..|s| - 1]) + DigitValue(s[|s| - 1])
  }

  lemma {:induction false} DecimalRoundTrip(n: nat)
    ensures DecimalValue(NatToDecimal(n)) == n
  {
    if n >= 10 {
      var s := NatToDecimal(n);
      assert s[..|s| - 1] == NatToDecimal(n / 10);
      DecimalRoundTrip(n / 10);
    }
  }

  /** `Integer.toString(n)`: a minus sign for negative numbers, then the digits. */
  function IntToString(n: int): (s: string)
    ensures 0 < |s|
    ensures n >= 0 <==> AllDigits(s)
    ensures n < 0 ==> s[0] == '-' && AllDigits(s[1..])
  {
    if n < 0 then
      var s := "-" + NatToDecimal(-n);
      assert !IsDigit(s[0]);
      s
    else NatToDecimal(n)
  }

  /** Distinct integers have distinct renderings. */
  lemma IntToStringInjective(a: int, b: int)
    requires IntToString(a) == IntToString(b)
    ensures a == b
  {
    if a >= 0 && b >= 0 {
      DecimalRoundTrip(a);
      DecimalRoundTrip(b);
    } else if a < 0 && b < 0 {
      assert NatToDecimal(-a) == IntToString(a)[1..];
      assert NatToDecimal(-b) == IntToString(b)[1..];
      DecimalRoundTrip(-a);
      DecimalRoundTrip(-b);
    }
  }

  // ---------------------------------------------------------------------------
  // String.split
  // ---------------------------------------------------------------------------

  /** Every piece of `s` between separators, empty pieces included. */
  function SplitAll(s: string, sep: char): (parts: seq<string>)
    ensures 0 < |parts|
    ensures forall i :: 0 <= i < |parts| ==> sep !in parts[i]
    ensures |parts[0]| <= |s| && parts[0] == s[..|parts[0]|]
    ensures sep !in s ==> parts == [s]
  {
    if |s| == 0 then [""]
    else
      var rest := SplitAll(s[1..], sep);
      if s[0] == sep then [""] + rest
      else
        assert s == [s[0]] + s[1..];
        [[s[0]] + rest[0]] + rest[1..]
  }

  /** Pieces glued back together with the separator between them. */
  function Join(parts: seq<string>, sep: char): string {
    if |parts| == 0 then ""
    else if |parts| == 1 then parts[0]
    else parts[0] + [sep] + Join(parts[1..], sep)
  }

  /** `SplitAll` loses nothing: joining its pieces gives back the input. */
  lemma {:induction false} JoinSplitAll(s: string, sep: char)
    ensures Join(SplitAll(s, sep), sep) == s
  {
    if |s| > 0 {
      var rest := SplitAll(s[1..], sep);
      JoinSplitAll(s[1..], sep);
      if s[0] == sep {
        assert SplitAll(s, sep)[1..] == rest;
      } else if |rest| == 1 {
        assert SplitAll(s, sep) == [[s[0]] + rest[0]];
      } else {
        var parts := SplitAll(s, sep);
        assert parts[1..] == rest[1..];
        assert Join(rest, sep) == rest[0] + [sep] + Join(rest[1..], sep);
      }
    }
  }

  /** The longest prefix of `parts` that does not end in an empty string. */
  function DropTrailingEmpty(parts: seq<string>): (kept: seq<string>)
    ensures |kept| <= |parts| && kept == parts[..|kept|]
    ensures forall i :: |kept| <= i < |parts| ==> parts[i] == ""
    ensures 0 < |kept| ==> kept[|kept| - 1] != ""
  {
    if |parts| == 0 || parts[|parts| - 1] != "" then parts
    else DropTrailingEmpty(parts[..|parts| - 1])
  }

  /**
   `s.split(String.valueOf(sep))`, limit 0: with no separator the result is
   `[s]` itself (even for the empty string); otherwise the pieces with the
   trailing empty ones removed.
   */
  function JavaSplit(s: string, sep: char): (parts: seq<string>)
    ensures |parts| <= |SplitAll(s, sep)| && parts == SplitAll(s, sep)[..|parts|]
    ensures forall i :: |parts| <= i < |SplitAll(s, sep)| ==> SplitAll(s, sep)[i] == ""
    ensures sep !in s ==> parts == [s]
    ensures sep in s && 0 < |parts| ==> parts[|parts| - 1] != ""
  {
    if sep !in s then [s] else DropTrailingEmpty(SplitAll(s, sep))
  }
}
